=== FILE: README.md ===
# luo build orchestrator: a Dafny model

`luo` is a small build tool for C and C++ projects. It walks the source
directory, recreates the directory layout below `build/.luo`, runs the C or
C++ compiler once per source file, links every object into a program named
after the working directory, and turns gcc's error output into a short
coloured report. This project models that core as pure Dafny functions and
proves what each step promises:

- **Listing a tree** (`DirTree`, `readDirRecursive`): the abstract `Scan` of a
  directory tree replaces the filesystem. It also fixes the order in which
  `stat` answers and subdirectory reads complete. The merged listing holds
  exactly the tree's files and directories, each once. Every directory comes
  after its parent, whatever the completion order. Reading fails exactly
  when some part of the tree is unreadable.
- **Classifying files** (`Paths`, `Classify`, `getFilesByExtension`): each
  file is grouped under the text after the last `.` of its base name, in
  listing order. The code as written is modelled too, and it throws for
  extensions such as `toString` (see Findings).
- **Staging directories** (`Staging`, `mkdir`/`mkdirs`): the directories are
  created one by one, and the first failure other than "already exists"
  stops the run. An oracle answers each `fs.mkdir` call. On a POSIX-like
  filesystem the staging list of a real tree always succeeds.
- **Planning compiler runs** (`Planning`, `compile`, `link`, `exec`,
  `addLibrary`, `addLibraries`): spawning a process is replaced by the
  planned `(program, arguments)` pair. The model proves:
  - which files are compiled and with which arguments, and which program
    each request names and which program is actually spawned;
  - when `stdc++` is added to the libraries;
  - what the link step passes.
- **Diagnostics** (`Diagnostics`, `gccParseErrors`, `gccColorOutput`): stderr
  is cut into paragraphs at every line that begins with a word character or
  `/`. Each paragraph is parsed into five colon-separated fields, and the
  records are rendered back as text. The colour styling is treated as the
  identity.

Files:
- `wrappers.dfy`: `Option` and `Result`.
- `seqs.dfy`: duplicate-freedom and cardinality.
- `text.dfy`: JavaScript `split`, `join`, `pop` and regex trimming.
- `numbers.dfy`: unary `+` and `toString` on integers.
- `paths.dfy`, `dir_tree.dfy`, `classify.dfy`, `staging.dfy`, `planning.dfy`
  and `diagnostics.dfy`: the modules named above.

All source citations are to `index.js`.

`exec` ignores its `cmd` argument and always spawns the C compiler
(index.js:181), so C++ files are requested for `g++` but compiled by `gcc`.
`Planning.Compile` plans with the corrected `exec`, which spawns the command
it is asked for, and the corrected grouping. `Planning.CompileAsWritten` keeps
both quirks of the code: its grouping throws on a source file classified under an
inherited `Object.prototype` property name, and its `exec` spawns the C
compiler. The two are related by lemmas (see Findings).

The runtime modelled is Node.js 0.10. There `Number` follows ECMAScript 5.1,
so `0o` and `0b` prefixes read as NaN. `fs` errors carry libuv's errno
numbering of that release, in which 47 is EEXIST.

## Model

| member | source | states |
|---|---|---|
| Text.Split | index.js:298 | `split(':')` yields pieces free of the separator that join back to the input text |
| Text.SplitJoin | index.js:298 | splitting a join of separator-free pieces gives exactly those pieces back |
| Text.Trim | index.js:300-302 | the two regex replacements leave no `\s` white space (Node.js 0.10's set, U+180E included) at either end, and leave nothing exactly when the field was all white space |
| Text.TrimExact | index.js:300-302 | trimming removes exactly the white space around a text and none of the text |
| Text.VowelSeparatorTrimmed | index.js:300-302 | U+180E, a space separator in the Unicode 6.2 tables of Node.js 0.10, is trimmed from either end of a field |
| Text.LastPieceIsAfterLast | index.js:166-167 | `split(c).pop()` is the text after the last `c`, or the whole text when there is none |
| Numbers.ToNumber | index.js:306-307 | a field converts to a number exactly when it is an integer literal: empty, decimal digits with at most one sign, or `0x`/`0X` and hexadecimal digits; such a field converts to its value, the empty field to 0 |
| Numbers.NumberExamples | index.js:306-307 | `007`, `+5`, `-12`, `0x1A` and the empty field read as 7, 5, -12, 26 and 0 |
| Numbers.NotNumberExamples | index.js:306-307 | `abc`, `face` and `0x` are NaN |
| Numbers.GarbledExamples | index.js:306-307 | `1-2` and `--5` are NaN |
| Numbers.PrefixExamples | index.js:306-307 | `0x0x1`, `0o17` and `0b1` are NaN |
| Numbers.NumberRoundTrip | index.js:306-307 | the decimal text of an integer converts back to that integer |
| Paths.BaseName | index.js:166 | a file's base name is the `/`-free suffix of its path, preceded by a `/` when it is shorter than the path |
| Paths.Extension | index.js:167-170 | a file has an extension exactly when its base name holds a `.`; the extension holds neither `.` nor `/` |
| Paths.ExtensionSuffix | index.js:167 | the base name is some stem, a `.`, and then the extension |
| Paths.ExtensionOfSuffix | index.js:167 | a path ending in `.e`, where `e` has no `.` or `/`, is classified under `e` |
| Paths.ExtensionIgnoresDirectories | index.js:166-170 | a `.` in a directory segment does not give a dot-free file name an extension |
| DirTree.ReadRecursive | index.js:101-133 | an unreadable directory reports its own error; otherwise a directory's own entries come first in its listing, and without subdirectories they are the whole listing |
| DirTree.ReadMembers | index.js:108-126 | a successful listing holds exactly the directories (or files) of the tree, as paths relative to its root |
| DirTree.ReadNoDup | index.js:108-126 | a successful listing names every directory and every file once |
| DirTree.ReadParents | index.js:110-117 | every listed directory comes after its parent, whatever order the subdirectory reads completed in |
| DirTree.ReadFails | index.js:101-133 | reading fails exactly when the directory itself or some subtree of a directory with subdirectories is unreadable |
| Classify.FilesWithExtension | index.js:165-174 | the files grouped under `e` are exactly the listed files whose extension is `e` |
| Classify.ByExtensionSpec | index.js:161-178 | the grouping has a key exactly for each extension that occurs, holding exactly its files in listing order |
| Classify.FileUnderOneKey | index.js:165-174 | a listed file lies under key `e` exactly when its extension is `e`, so under at most one key |
| Classify.AsWrittenFails | index.js:172-173 | the code as written throws exactly when some file's extension names an inherited `Object.prototype` property, and reports such a name |
| Classify.AsWrittenAgrees | index.js:172-173 | without such a file the code as written computes the intended grouping; with one it throws |
| Classify.PrototypeKeyCrash | index.js:172-173 | a file `stem.key` with an inherited property name as its extension makes the code as written throw, where the intended grouping files it under `key` |
| Classify.PrototypeKeyCounterexample | index.js:172-173 | `notes.toString` is such a file |
| Classify.PrototypeKeyAfter | index.js:165-174 | such a file after files that group without trouble makes the code as written throw, naming its extension |
| Classify.MainBeforePrototype | index.js:165-174 | `main.c` followed by `notes.toString` throws, naming `toString` |
| Staging.Mkdirs | index.js:144-159 | a run attempts at most every name, attempts all of them when it reports no error, and attempts at least one when it does |
| Staging.MkdirsSpec | index.js:135-159 | staging succeeds exactly when every `mkdir` succeeds or finds the directory already there; otherwise it stops at the first other failure and reports that error |
| Staging.StagingList | index.js:204-206 | the staging list is the build directory, its `.luo` directory and one directory per source directory |
| Staging.IdealStagingSucceeds | index.js:144-159 | on a POSIX-like filesystem a list whose parents come first, or already exist, is staged without error |
| Staging.StagingParents | index.js:204-206 | the staging list of a parents-first source listing puts every parent first |
| Staging.CompileStagingSucceeds | index.js:203-206 | staging the directories of a readable, well-formed source tree succeeds on a POSIX-like filesystem where the build directory's parent exists |
| Staging.ChildFirstFails | index.js:144-159 | a nested directory attempted before its parent stops the run at once with ENOENT |
| Staging.ParentFirstExample | index.js:144-159 | `a` then `a/b` stages both directories |
| Staging.ChildFirstExample | index.js:144-159 | `a/b` then `a` stops at the first name |
| Planning.ExecIgnoresCommand | index.js:180-181 | `exec` as written spawns the C compiler, and agrees with the intended `exec` exactly on requests for the C compiler |
| Planning.SpawnAllAgree | index.js:180-181 | over a list of requests the as-written `exec` spawns what the intended one does exactly when every request is for the C compiler |
| Planning.CompileAsWrittenSpec | index.js:202-247 | `compile` as written fails with the same error where the intended plan fails; where the intended plan succeeds it throws exactly when a source file is classified under an inherited property name; otherwise it updates the options the same way, and every program it spawns is the C compiler, with the arguments the intended plan gives that position |
| Planning.CompileAsWrittenAgrees | index.js:172-181 | the code as written does what was intended exactly when no source file is classified under an inherited property name, and no C++ file is compiled or the two compilers are the same program |
| Planning.PrototypeSourceThrows | index.js:202-211 | a source file such as `notes.toString` after files that group without trouble makes `compile` as written throw before any compiler runs, where the intended `compile` reaches the compilers |
| Planning.CppCompilerCounterexample | index.js:228-240 | with the default options a `.cpp` file is requested for `g++` but the code as written spawns `gcc` |
| Planning.Flags | index.js:215-217 | each include path or library becomes one flag, in order |
| Planning.CompileRequestsFor | index.js:210-226 | one request per file, each for the given compiler with that file's compile arguments |
| Planning.CompileArgsInjective | index.js:213 | two files with the same compile arguments are the same file |
| Planning.WithStdCpp | index.js:229-230 | the result holds `stdc++`, extends the list by at most that name, and equals the list exactly when `stdc++` was already there |
| Planning.WithStdCppIdempotent | index.js:229-230 | adding `stdc++` twice is adding it once |
| Planning.AddLibrary | index.js:331-333 | the library is appended (one more occurrence even when already listed) and no other option changes |
| Planning.AddLibraries | index.js:335-337 | only the library list changes |
| Planning.AddLibrariesOneByOne | index.js:331-337 | adding a list of libraries is adding them one by one, in order |
| Planning.GroupIsFilter | index.js:207-228 | the files compiled under one extension are exactly the listed files with that extension, in listing order |
| Planning.CompilePlanSpec | index.js:202-247 | a successful `compile` spawns one compiler per C file and then one per C++ file, with their arguments; it adds `stdc++` exactly when a C++ file occurs |
| Planning.CompileFailure | index.js:202-258 | `compile` stops before the compilers exactly when a tree read fails or a staging `mkdir` fails, and an unreadable first listing decides the error |
| Planning.CompiledFiles | index.js:210-247 | a file is compiled exactly when it is listed with the C or the C++ extension |
| Planning.CompileLibrariesSettle | index.js:228-230 | running `compile` again over the same tree leaves the library list as the first run left it |
| Planning.CompileAddsStdCpp | index.js:228-230 | after a `compile` that saw a C++ file, `stdc++` is among the libraries |
| Planning.CompileReachesCompilers | index.js:203-207 | over a readable, well-formed tree on a POSIX-like filesystem, `compile` always reaches the compilers |
| Planning.LinkSpec | index.js:261-279 | `link` fails exactly when no `.o` file is listed; otherwise it runs the C compiler with the `-l` flags, the object paths and `-o` with an output in the build directory named after the working directory |
| Planning.ObjectsClassified | index.js:234 | the object `f.o` written for a source file is classified under `o` |
| Planning.LinkPassesLibraries | index.js:265-267 | every library on the list reaches the link step as a `-l` flag |
| Planning.LinkAfterCppCompile | index.js:281-290 | in a build, a link after a `compile` that saw a C++ file passes `-lstdc++` |
| Diagnostics.PiecesShape | index.js:293-294 | after the marker is put before each paragraph start, the first piece is the text before the first start and each later piece runs from one start to the next |
| Diagnostics.ParagraphText | index.js:293-294 | paragraph `k` runs from the `k`-th line-start word character or `/` up to the next one or the end of the text |
| Diagnostics.ParagraphLayout | index.js:292-311 | record `k` is parsed from paragraph `k` less its last character, whatever that character is |
| Diagnostics.ContinuationLinesStay | index.js:293 | a position that starts no paragraph either precedes every paragraph or lies inside the paragraph before it |
| Diagnostics.RecordCount | index.js:293-294 | there are exactly as many records as lines beginning with a word character or `/` |
| Diagnostics.ParseLine | index.js:298-310 | the file, type and message of a record are trimmed, and a record with a message also has a type |
| Diagnostics.ParseFields | index.js:298-310 | the record reads the colon-separated fields in order, each trimmed; the line and column go through `+`, and missing fields are undefined |
| Diagnostics.ExtraFieldsDropped | index.js:298-310 | everything after the fifth field is ignored, so a message holding a colon is cut there |
| Diagnostics.GccLineRoundTrip | index.js:298-310 | parsing the line gcc prints for a diagnostic gives that diagnostic back |
| Diagnostics.SingleLine | index.js:292-313 | one diagnostic line followed by a newline gives exactly one record |
| Diagnostics.SingleGccLine | index.js:292-313 | the stderr of one gcc diagnostic parses to exactly that diagnostic |
| Diagnostics.ParseExample | index.js:292-313 | `foo.c:10:5: error: expected ';'` parses to file `foo.c`, line 10, column 5, type `error`, message `expected ';'` |
| Diagnostics.RenderStep | index.js:322-325 | splitting off the caret and appending it again leaves the message intact |
| Diagnostics.RenderFromSpec | index.js:321-326 | from record `i` on, rendering succeeds exactly when those records have a type and a message; it then gives their blocks joined by newlines, and otherwise names the first record that lacks one |
| Diagnostics.RenderSpec | index.js:316-329 | rendering succeeds exactly when every record has a type and a message and yields their blocks joined by single newlines (none gives ""); otherwise it names the first failing record, checking the message first |
| Diagnostics.ParseLineRenderable | index.js:304-310 | a record has a type and a message exactly when its text has at least five colon-separated fields |
| Diagnostics.ColorOutputFailure | index.js:316-329 | `gccColorOutput` throws exactly when some paragraph has fewer than five fields |
| Diagnostics.ColorOutputSingle | index.js:316-329 | one gcc line renders as `type file line N`, a newline, a space and the whole message |
| Diagnostics.ColorOutputExample | index.js:316-329 | the example line renders as `error foo.c line 10` followed by ` expected ';'` on the next line |

## Left out

- The filesystem calls are not modelled: `fs.exists`, `fs.readdir` and `fs.stat`, and how `readDir` splits entries into files and directories (index.js:56-99). A `Scan` gives the result of each read, with the order in which the answers arrived.
- Process spawning is not modelled: `child_process.spawn`, the stdout/stderr buffering and the exit code (index.js:182-199). `compile` and `link` end with the invocations they would spawn.
- `async.parallel` collecting the compiler runs is not modelled, because that needs process outcomes (index.js:249-255). Nor is the `build` chaining of `compile` and `link` with `perror` as the default failure handler (index.js:281-290), beyond LinkAfterCppCompile.
- The `colors` styling in `gccColorOutput` is taken to be the identity, because it only adds terminal escape codes.
- The message built by the `error` helper for a missing path is reduced to `PathMissing` (index.js:34-36, 56-60).
- `setOptions`, `publishFunction` and the module exports are left out (index.js:42-54, 339-358). A `Config` value is passed explicitly instead of the shared `options` object.
- A missing `fail` callback makes a failing `readDir`, `readDirRecursive`, `mkdir`, `mkdirs` or `compile` step hang silently, because they call it only under `else if (fail)` (index.js:88, 92, 95, 127, 139, 156, 252). `exec` calls `fail` unconditionally (index.js:197), so a failing `link` without one throws a TypeError instead. The model reports every failure as a `Result`.
- Diagnostics.Paragraphs: a literal `<luo-new-line>` inside the compiler output also splits a paragraph in the source. The model splits only at line starts.
- Numbers.ToNumber: literals with a fraction, an exponent or `Infinity` give None (NaN) here, although `Number` accepts them.
- Numbers.ToNumber: integers beyond 2^53 are kept exactly, where JavaScript rounds them. Floating point is out of scope.
- DirTree.ReadMembers: requires a well-formed scan. That means single-segment names without repeats, and each subdirectory arriving once, which is what `readdir` gives.
- DirTree.ReadNoDup and DirTree.ReadParents: they require a well-formed scan for the same reason.
- Staging.IdealMkdir: gives the POSIX behaviour with ENOENT numbered 34, as in the errno numbering where 47 is EEXIST. Other platforms' numbering is not modelled.
- Planning.Compile: it uses the corrected `exec` (Planning.Spawn) and the corrected grouping (Classify.FilesByExtension). Planning.CompileAsWritten uses both as written, and the Findings name the lemmas relating the two.
- Planning.Link: it groups the `.luo` listing with the corrected grouping too. A file there whose extension names an inherited property would make the source throw at index.js:172-173. `compile` writes only `.o` files there.
- Planning.Compile and Planning.CompileAsWritten: a configured C or C++ extension that names an inherited `Object.prototype` property (`constructor`, `toString`, ...) and that no file has is not modelled. In the source, `files[ext]` is then an inherited value, so the check at index.js:210 or 228 passes and `forEach` throws (index.js:211, 232); for the C++ key `stdc++` is pushed first. The model looks the key up in the grouping only, so it compiles nothing for that extension and adds no `stdc++`. The extensions are options, and the defaults `c` and `cpp` are not such names.
- Diagnostics.ParseErrors: strings are modelled as sequences of Unicode code points. JavaScript's `length`, `substring` and `substr(-1)` count UTF-16 code units (index.js:297, 322-323). So where a paragraph or message ends in a character outside the Basic Multilingual Plane, such as an emoji, the source cuts off only its low surrogate, while the model drops the whole character.
- Planning.Link: `files.o` missing makes `files.o.map` throw. The model returns `NoObjects` for that case.

## Findings

| source | as written | input that shows it | evidently intended | confidence | as-written member | corrected member |
|---|---|---|---|---|---|---|
| index.js:172-173 | `files[ext] = files[ext] \|\| []` takes the value inherited from `Object.prototype` when `ext` names one of its properties, and `push` on it throws a TypeError | a source file `notes.toString` | the file is grouped under `toString` like any other extension | high; not executed | Classify.FilesByExtensionAsWritten (Classify.PrototypeKeyCounterexample, Classify.AsWrittenAgrees, Planning.CompileAsWritten, Planning.PrototypeSourceThrows) | Classify.FilesByExtension (Classify.ByExtensionSpec) |
| index.js:180-181 | `exec` spawns `options.compiler.c` and ignores its `cmd` argument, so the C++ compiler setting is never used | a project with `main.cpp` under the default options: `g++` is requested, `gcc` is spawned | `exec` spawns `cmd` | high; not executed | Planning.SpawnAsWritten (Planning.CompileAsWritten, Planning.CompileAsWrittenAgrees, Planning.CppCompilerCounterexample) | Planning.Spawn (Planning.Compile, Planning.CompiledFiles, Planning.CompilePlanSpec) |

=== FILE: classify.dfy ===
/** `getFilesByExtension`: the files of a listing grouped under the text after
    the last `.` of their base names, in listing order. */
module Classify {
  import opened Wrappers
  import opened Paths

  /** The files of `files` classified under `e`, in their listing order */
  function FilesWithExtension(files: seq<string>, e: string): (r: seq<string>)
    ensures forall f :: f in r <==> f in files && Extension(f) == Some(e)
    ensures |r| <= |files|
  {
    if |files| == 0 then []
    else
      var init, f := files[..|files| - 1], files[|files| - 1];
      assert files == init + [f];
      FilesWithExtension(init, e) + (if Extension(f) == Some(e) then [f] else [])
  }

  /** The grouping the source evidently intends: one key per extension that
      occurs, each holding its files in order */
  function FilesByExtension(files: seq<string>): (m: map<string, seq<string>>)
  {
    if |files| == 0 then map[]
    else
      var m := FilesByExtension(files[..|files| - 1]);
      var f := files[|files| - 1];
      match Extension(f)
      case None => m
      case Some(e) => m[e := (if e in m then m[e] else []) + [f]]
  }

  /** Some file of the listing is classified under `e` */
  predicate Occurs(files: seq<string>, e: string) {
    exists i :: 0 <= i < |files| && Extension(files[i]) == Some(e)
  }

  /** No file is classified under `e`, so its filter is empty */
  lemma {:induction false} NoneWithExtension(files: seq<string>, e: string)
    requires !Occurs(files, e)
    ensures FilesWithExtension(files, e) == []
  {
    if |files| > 0 {
      var init := files[..|files| - 1];
      assert forall i :: 0 <= i < |init| ==> init[i] == files[i];
      NoneWithExtension(init, e);
    }
  }

  lemma OccursSnoc(init: seq<string>, f: string, e: string)
    ensures Occurs(init + [f], e) <==> Occurs(init, e) || Extension(f) == Some(e)
  {
    var files := init + [f];
    assert forall i :: 0 <= i < |init| ==> files[i] == init[i];
    assert files[|init|] == f;
  }

  /** The keys are exactly the extensions that occur */
  lemma {:induction false} ByExtensionKeys(files: seq<string>)
    ensures forall e :: e in FilesByExtension(files) <==> Occurs(files, e)
  {
    if |files| > 0 {
      var init, f := files[..|files| - 1], files[|files| - 1];
      assert files == init + [f];
      ByExtensionKeys(init);
      var m0 := FilesByExtension(init);
      assert forall e :: e in FilesByExtension(files) <==> e in m0 || Extension(f) == Some(e);
      forall e ensures e in FilesByExtension(files) <==> Occurs(files, e) {
        OccursSnoc(init, f, e);
      }
    }
  }

  /** Each key holds exactly the files classified under it, in listing order */
  lemma {:induction false} ByExtensionValues(files: seq<string>)
    ensures forall e :: e in FilesByExtension(files) ==>
      FilesByExtension(files)[e] == FilesWithExtension(files, e)
  {
    if |files| > 0 {
      var init, f := files[..|files| - 1], files[|files| - 1];
      assert files == init + [f];
      ByExtensionValues(init);
      ByExtensionKeys(init);
      var m0 := FilesByExtension(init);
      forall e | e in FilesByExtension(files)
        ensures FilesByExtension(files)[e] == FilesWithExtension(files, e)
      {
        if e !in m0 {
          NoneWithExtension(init, e);
        }
      }
    }
  }

  /** The keys are exactly the extensions that occur, and each key holds exactly
      the files classified under it, in listing order */
  lemma {:induction false} ByExtensionSpec(files: seq<string>)
    ensures forall e :: e in FilesByExtension(files) <==> Occurs(files, e)
    ensures forall e :: e in FilesByExtension(files) ==>
      FilesByExtension(files)[e] == FilesWithExtension(files, e)
  {
    ByExtensionKeys(files);
    ByExtensionValues(files);
  }

  /** A file lies under exactly one key when its base name has a `.`, and under
      none otherwise */
  lemma {:induction false} FileUnderOneKey(files: seq<string>, f: string, e: string)
    requires f in files
    ensures e in FilesByExtension(files) && f in FilesByExtension(files)[e]
      <==> Extension(f) == Some(e)
  {
    ByExtensionSpec(files);
    if Extension(f) == Some(e) {
      var i :| 0 <= i < |files| && files[i] == f;
      assert Occurs(files, e);
    }
  }

  /** The names a plain JavaScript object inherits from `Object.prototype`;
      `files[ext] || []` yields the inherited value for them */
  const PrototypeKeys: set<string> := {
    "constructor", "toString", "toLocaleString", "valueOf", "hasOwnProperty",
    "isPrototypeOf", "propertyIsEnumerable", "__defineGetter__",
    "__defineSetter__", "__lookupGetter__", "__lookupSetter__", "__proto__"
  }

  /** The grouping as written: a key naming an inherited property makes
      `files[ext].push` throw a TypeError, reported here as a Failure carrying
      that key; the first such file in listing order throws */
  function FilesByExtensionAsWritten(files: seq<string>): (r: Result<map<string, seq<string>>, string>)
  {
    if |files| == 0 then Success(map[])
    else
      match FilesByExtensionAsWritten(files[..|files| - 1])
      case Failure(key) => Failure(key)
      case Success(m) =>
        var f := files[|files| - 1];
        match Extension(f)
        case None => Success(m)
        case Some(e) =>
          if e in PrototypeKeys then Failure(e)
          else Success(m[e := (if e in m then m[e] else []) + [f]])
  }

  /** Some file is classified under an inherited property name */
  predicate HitsPrototype(files: seq<string>) {
    exists i :: 0 <= i < |files| && IsPrototypeHit(files[i])
  }

  /** Whether a file is classified under an inherited property name */
  predicate IsPrototypeHit(f: string) {
    Extension(f).Some? && Extension(f).value in PrototypeKeys
  }

  lemma HitsPrototypeSnoc(init: seq<string>, f: string)
    ensures HitsPrototype(init + [f]) <==> HitsPrototype(init) || IsPrototypeHit(f)
  {
    var files := init + [f];
    assert forall i :: 0 <= i < |init| ==> files[i] == init[i];
    assert files[|init|] == f;
  }

  /** The code as written throws exactly when some file is classified under an
      inherited property name, and then reports such a name */
  lemma {:induction false} AsWrittenFails(files: seq<string>)
    ensures FilesByExtensionAsWritten(files).Failure? <==> HitsPrototype(files)
    ensures FilesByExtensionAsWritten(files).Failure? ==>
      FilesByExtensionAsWritten(files).error in PrototypeKeys
  {
    if |files| > 0 {
      var init, f := files[..|files| - 1], files[|files| - 1];
      assert files == init + [f];
      AsWrittenFails(init);
      HitsPrototypeSnoc(init, f);
    }
  }

  /** Without such a file the code as written computes the intended grouping */
  lemma {:induction false} AsWrittenSucceeds(files: seq<string>)
    requires !HitsPrototype(files)
    ensures FilesByExtensionAsWritten(files) == Success(FilesByExtension(files))
  {
    if |files| > 0 {
      var init, f := files[..|files| - 1], files[|files| - 1];
      assert files == init + [f];
      HitsPrototypeSnoc(init, f);
      AsWrittenSucceeds(init);
    }
  }

  /** The code as written agrees with the intended grouping exactly when no file
      is classified under an inherited property name, and throws otherwise */
  lemma AsWrittenAgrees(files: seq<string>)
    ensures FilesByExtensionAsWritten(files).Failure? <==> HitsPrototype(files)
    ensures !HitsPrototype(files) ==>
      FilesByExtensionAsWritten(files) == Success(FilesByExtension(files))
    ensures FilesByExtensionAsWritten(files).Failure? ==>
      FilesByExtensionAsWritten(files).error in PrototypeKeys
  {
    AsWrittenFails(files);
    if !HitsPrototype(files) {
      AsWrittenSucceeds(files);
    }
  }

  /** A single file classified under an inherited property name stops the
      classification with a TypeError, where the intended grouping files it
      under that name */
  lemma PrototypeKeyCrash(stem: string, key: string)
    requires key in PrototypeKeys && '.' !in key && '/' !in key
    ensures FilesByExtensionAsWritten([stem + "." + key]) == Failure(key)
    ensures FilesByExtension([stem + "." + key]) == map[key := [stem + "." + key]]
  {
    var f := stem + "." + key;
    ExtensionOfSuffix(stem, key);
    assert [f][..0] == [];
    var empty: map<string, seq<string>> := map[];
    assert FilesByExtension([f]) == empty[key := [] + [f]];
    assert [] + [f] == [f];
    assert empty[key := [f]].Keys == {key} == map[key := [f]].Keys;
    assert empty[key := [f]] == map[key := [f]];
  }

  /** Such a file after files that group without trouble stops the
      classification with a TypeError naming its extension */
  lemma {:induction false} PrototypeKeyAfter(init: seq<string>, stem: string, key: string)
    requires !HitsPrototype(init)
    requires key in PrototypeKeys && '.' !in key && '/' !in key
    ensures FilesByExtensionAsWritten(init + [stem + "." + key]) == Failure(key)
  {
    var files := init + [stem + "." + key];
    ExtensionOfSuffix(stem, key);
    AsWrittenSucceeds(init);
    assert files[..|files| - 1] == init;
  }

  /** A single file whose extension is no inherited property name groups
      without trouble */
  lemma SingleNoHit(f: string, e: string)
    requires Extension(f) == Some(e) && e !in PrototypeKeys
    ensures !HitsPrototype([f])
  {
  }

  /** `main.c` groups without trouble */
  lemma MainGroups(c: string)
    requires c == "main.c"
    ensures !HitsPrototype([c])
  {
    assert Extension(c) == Some("c") by {
      assert c == "main" + "." + "c";
      ExtensionOfSuffix("main", "c");
    }
    CNotPrototype();
    SingleNoHit(c, "c");
  }

  lemma CNotPrototype()
    ensures "c" !in PrototypeKeys
  {
  }

  /** For instance `main.c` followed by `notes.toString` */
  lemma MainBeforePrototype(c: string, n: string)
    requires c == "main.c" && n == "notes.toString"
    ensures FilesByExtensionAsWritten([c, n]) == Failure("toString")
  {
    MainGroups(c);
    assert n == "notes" + "." + "toString";
    assert [c, n] == [c] + [n];
    PrototypeKeyAfter([c], "notes", "toString");
  }

  /** For instance a note saved as `notes.toString` */
  lemma {:induction false} PrototypeKeyCounterexample(f: string)
    requires f == "notes.toString"
    ensures FilesByExtensionAsWritten([f]) == Failure("toString")
    ensures FilesByExtension([f]) == map["toString" := [f]]
  {
    assert f == "notes" + "." + "toString";
    PrototypeKeyCrash("notes", "toString");
  }
}

=== FILE: diagnostics.dfy ===
/** `gccParseErrors` and `gccColorOutput`: compiler stderr text turned into
    diagnostic records, and the records rendered back as one text, with the
    colour styling treated as the identity. */
module Diagnostics {
  import opened Wrappers
  import opened Text
  import opened Numbers
  import opened Seqs

  /** One parsed diagnostic. Missing fields (`undefined`) and NaN numbers are None. */
  datatype Diagnostic = Diagnostic(
    file: string,
    line: Option<int>,
    column: Option<int>,
    kind: Option<string>,
    message: Option<string>)

  /** Characters after which a multiline-mode `^` matches */
  predicate IsLineTerminator(c: char) {
    c == '\n' || c == '\r' || c == '\U{2028}' || c == '\U{2029}'
  }

  /** `[\w\d\/]`: a word character or a slash */
  predicate IsHeadChar(c: char) {
    ('a' <= c <= 'z') || ('A' <= c <= 'Z') || ('0' <= c <= '9') || c == '_' || c == '/'
  }

  /** Position `i` begins a new diagnostic: a head character at the start of a line */
  predicate IsParagraphStart(s: string, i: int) {
    0 <= i < |s| && IsHeadChar(s[i]) && (i == 0 || IsLineTerminator(s[i - 1]))
  }

  /** The pieces that splitting on the marker yields once the marker has been put
      in front of every paragraph start of `s[..n]`: reading left to right, a
      paragraph start opens a new piece and any other character extends the last. */
  function PiecesUpTo(s: string, n: nat): (ps: seq<string>)
    requires n <= |s|
    ensures |ps| >= 1
  {
    if n == 0 then [""]
    else
      var ps := PiecesUpTo(s, n - 1);
      if IsParagraphStart(s, n - 1) then ps + [[s[n - 1]]]
      else ps[..|ps| - 1] + [Last(ps) + [s[n - 1]]]
  }

  /** The pieces after `errors.shift()` has discarded the first */
  function Paragraphs(s: string): seq<string> {
    PiecesUpTo(s, |s|)[1..]
  }

  /** `e.substring(0, e.length - 1)` */
  function DropLast(e: string): string {
    if |e| == 0 then e else e[..|e| - 1]
  }

  /** `info[i]`, undefined past the end */
  function Field(info: seq<string>, i: nat): Option<string> {
    if i < |info| then Some(info[i]) else None
  }

  /** `+info[i]`: undefined converts to NaN */
  function NumberOf(f: Option<string>): Option<int> {
    match f
    case None => None
    case Some(t) => ToNumber(t)
  }

  predicate IsTrimmed(t: string) {
    |t| == 0 || (!IsJsSpace(t[0]) && !IsJsSpace(t[|t| - 1]))
  }

  function TrimAll(xs: seq<string>): (r: seq<string>)
    ensures |r| == |xs|
    ensures forall k :: 0 <= k < |r| ==> r[k] == Trim(xs[k]) && IsTrimmed(r[k])
  {
    seq(|xs|, k requires 0 <= k < |xs| => Trim(xs[k]))
  }

  /** One paragraph (already without its last character) split on `:` into
      trimmed fields; fields past the fifth are ignored. */
  function ParseLine(text: string): (d: Diagnostic)
    ensures IsTrimmed(d.file)
    ensures d.kind.Some? ==> IsTrimmed(d.kind.value)
    ensures d.message.Some? ==> IsTrimmed(d.message.value) && d.kind.Some?
  {
    var info := TrimAll(Split(text, ':'));
    Diagnostic(info[0], NumberOf(Field(info, 1)), NumberOf(Field(info, 2)), Field(info, 3), Field(info, 4))
  }

  /** `gccParseErrors(stderr)` */
  function ParseErrors(stderr: string): (ds: seq<Diagnostic>)
    ensures |ds| == |Paragraphs(stderr)|
  {
    var ps := Paragraphs(stderr);
    seq(|ps|, k requires 0 <= k < |ps| => ParseLine(DropLast(ps[k])))
  }

  /** The paragraph starts below `n`, in increasing order */
  function StartsBelow(s: string, n: nat): (st: seq<nat>)
    requires n <= |s|
    ensures forall k :: 0 <= k < |st| ==> st[k] < n && IsParagraphStart(s, st[k])
    ensures forall j :: 0 <= j < n && IsParagraphStart(s, j) ==> j in st
    ensures forall k, l :: 0 <= k < l < |st| ==> st[k] < st[l]
  {
    if n == 0 then []
    else StartsBelow(s, n - 1) + (if IsParagraphStart(s, n - 1) then [n - 1] else [])
  }

  function Starts(s: string): seq<nat> {
    StartsBelow(s, |s|)
  }

  /** Where the paragraph opened by the k-th start ends: at the next start, or at `n` */
  function PieceEnd(st: seq<nat>, k: nat, n: nat): nat
    requires k < |st|
  {
    if k + 1 < |st| then st[k + 1] else n
  }

  /** Piece k+1 of `ps` is the paragraph opened by the k-th start of `st` */
  predicate PieceAt(s: string, n: nat, st: seq<nat>, ps: seq<string>, k: nat)
    requires n <= |s| && k < |st| && |ps| == |st| + 1
  {
    st[k] < PieceEnd(st, k, n) <= n && ps[k + 1] == s[st[k]..PieceEnd(st, k, n)]
  }

  /** The first piece is the text before the first start; piece k+1 runs from the
      k-th start to the next one */
  predicate Shaped(s: string, n: nat, st: seq<nat>, ps: seq<string>)
    requires n <= |s|
  {
    && |ps| == |st| + 1
    && (|st| > 0 ==> st[0] <= n)
    && ps[0] == s[..if |st| > 0 then st[0] else n]
    && forall k :: 0 <= k < |st| ==> PieceAt(s, n, st, ps, k)
  }

  lemma ShapedAfterStart(s: string, n: nat, st: seq<nat>, ps: seq<string>)
    requires 0 < n <= |s| && Shaped(s, n - 1, st, ps)
    requires forall k :: 0 <= k < |st| ==> st[k] < n - 1
    ensures Shaped(s, n, st + [n - 1], ps + [[s[n - 1]]])
  {
    var st', ps' := st + [n - 1], ps + [[s[n - 1]]];
    forall k | 0 <= k < |st'|
      ensures PieceAt(s, n, st', ps', k)
    {
      if k < |st| {
        assert PieceAt(s, n - 1, st, ps, k);
        assert PieceEnd(st', k, n) == PieceEnd(st, k, n - 1);
        assert ps'[k + 1] == ps[k + 1];
      } else {
        assert ps'[k + 1] == [s[n - 1]] == s[n - 1..n];
      }
    }
  }

  lemma ShapedAfterOther(s: string, n: nat, st: seq<nat>, ps: seq<string>)
    requires 0 < n <= |s| && Shaped(s, n - 1, st, ps)
    ensures Shaped(s, n, st, ps[..|ps| - 1] + [Last(ps) + [s[n - 1]]])
  {
    var ps' := ps[..|ps| - 1] + [Last(ps) + [s[n - 1]]];
    if |st| == 0 {
      assert ps'[0] == s[..n - 1] + [s[n - 1]] == s[..n];
    }
    forall k | 0 <= k < |st|
      ensures PieceAt(s, n, st, ps', k)
    {
      assert PieceAt(s, n - 1, st, ps, k);
      if k + 1 < |st| {
        assert ps'[k + 1] == ps[k + 1];
      } else {
        assert ps'[k + 1] == ps[k + 1] + [s[n - 1]];
        assert s[st[k]..n - 1] + [s[n - 1]] == s[st[k]..n];
      }
    }
  }

  lemma {:induction false} PiecesShape(s: string, n: nat)
    requires n <= |s|
    ensures Shaped(s, n, StartsBelow(s, n), PiecesUpTo(s, n))
  {
    if n > 0 {
      var st, ps := StartsBelow(s, n - 1), PiecesUpTo(s, n - 1);
      PiecesShape(s, n - 1);
      if IsParagraphStart(s, n - 1) {
        var st', ps' := st + [n - 1], ps + [[s[n - 1]]];
        ShapedAfterStart(s, n, st, ps);
        assert StartsBelow(s, n) == st' && PiecesUpTo(s, n) == ps';
      } else {
        var ps' := ps[..|ps| - 1] + [Last(ps) + [s[n - 1]]];
        ShapedAfterOther(s, n, st, ps);
        assert StartsBelow(s, n) == st + [];
        assert StartsBelow(s, n) == st && PiecesUpTo(s, n) == ps';
      }
    }
  }

  /** Paragraph k runs from the k-th start to the next start or the end of the text */
  lemma ParagraphText(s: string)
    ensures var st, ps := Starts(s), Paragraphs(s);
      && |ps| == |st|
      && forall k :: 0 <= k < |st| ==> st[k] < PieceEnd(st, k, |s|) && ps[k] == s[st[k]..PieceEnd(st, k, |s|)]
  {
    PiecesShape(s, |s|);
    var st, ps := Starts(s), Paragraphs(s);
    forall k | 0 <= k < |st|
      ensures st[k] < PieceEnd(st, k, |s|) && ps[k] == s[st[k]..PieceEnd(st, k, |s|)]
    {
      assert PieceAt(s, |s|, st, PiecesUpTo(s, |s|), k);
    }
  }

  lemma DropLastOfSlice(s: string, a: nat, b: nat)
    requires a < b <= |s|
    ensures DropLast(s[a..b]) == s[a..b - 1]
  {
  }

  /** The k-th paragraph start opens paragraph k, which runs to the next start or the end */
  lemma ParagraphOfStart(s: string, k: nat)
    requires k < |Starts(s)|
    ensures |Paragraphs(s)| == |Starts(s)|
    ensures Starts(s)[k] < PieceEnd(Starts(s), k, |s|) <= |s|
    ensures Paragraphs(s)[k] == s[Starts(s)[k]..PieceEnd(Starts(s), k, |s|)]
  {
    ParagraphText(s);
  }

  /** Record k is parsed from paragraph k less its last character */
  lemma RecordOfParagraph(s: string, k: nat)
    requires k < |Paragraphs(s)|
    ensures k < |ParseErrors(s)| && ParseErrors(s)[k] == ParseLine(DropLast(Paragraphs(s)[k]))
  {
  }

  lemma RecordFromSlice(s: string, st: seq<nat>, ps: seq<string>, ds: seq<Diagnostic>, k: nat, end: nat)
    requires |ps| == |st| && |ds| == |ps| && k < |st| && st[k] < end <= |s|
    requires ps[k] == s[st[k]..end] && ds[k] == ParseLine(DropLast(ps[k]))
    ensures ds[k] == ParseLine(s[st[k]..end - 1])
  {
    DropLastOfSlice(s, st[k], end);
  }

  lemma RecordText(s: string, k: nat)
    requires k < |Starts(s)|
    ensures Starts(s)[k] < PieceEnd(Starts(s), k, |s|)
    ensures k < |ParseErrors(s)|
    ensures ParseErrors(s)[k] == ParseLine(s[Starts(s)[k]..PieceEnd(Starts(s), k, |s|) - 1])
  {
    ParagraphOfStart(s, k);
    RecordOfParagraph(s, k);
    RecordFromSlice(s, Starts(s), Paragraphs(s), ParseErrors(s), k, PieceEnd(Starts(s), k, |s|));
  }

  /** Record k is parsed from the text that runs from the k-th paragraph start up
      to the next start (or the end of the input), less its final character,
      whatever that character is. */
  lemma {:induction false} ParagraphLayout(s: string)
    ensures var st := Starts(s); var ds := ParseErrors(s);
      && |ds| == |st|
      && forall k :: 0 <= k < |st| ==>
           st[k] < PieceEnd(st, k, |s|) && ds[k] == ParseLine(s[st[k]..PieceEnd(st, k, |s|) - 1])
  {
    ParagraphText(s);
    forall k | 0 <= k < |Starts(s)|
      ensures Starts(s)[k] < PieceEnd(Starts(s), k, |s|)
      ensures ParseErrors(s)[k] == ParseLine(s[Starts(s)[k]..PieceEnd(Starts(s), k, |s|) - 1])
    {
      RecordText(s, k);
    }
  }

  /** A line that does not begin with a head character stays inside the paragraph
      of the diagnostic before it; text before the first start lies in no paragraph. */
  lemma {:induction false} ContinuationLinesStay(s: string, j: nat)
    requires j < |s| && !IsParagraphStart(s, j)
    ensures var st := Starts(s);
      || (|st| == 0 || j < st[0])
      || exists k :: 0 <= k < |st| && st[k] < j < PieceEnd(st, k, |s|)
  {
    var st := Starts(s);
    if |st| > 0 && st[0] <= j {
      var k := LastStartAtOrBefore(st, j);
      assert st[k] != j;
    }
  }

  /** The index of the last start at or before `j` */
  function LastStartAtOrBefore(st: seq<nat>, j: nat): (k: nat)
    requires |st| > 0 && st[0] <= j
    requires forall a, b :: 0 <= a < b < |st| ==> st[a] < st[b]
    ensures k < |st| && st[k] <= j
    ensures k + 1 < |st| ==> j < st[k + 1]
  {
    if |st| == 1 || j < st[1] then 0
    else 1 + LastStartAtOrBefore(st[1..], j)
  }

  /** The set of positions that begin a diagnostic */
  ghost function StartPositions(s: string): set<nat> {
    set i: nat | i < |s| && IsParagraphStart(s, i)
  }

  /** There are exactly as many records as there are lines beginning with a word
      character or a slash */
  lemma RecordCount(s: string)
    ensures |ParseErrors(s)| == |StartPositions(s)|
  {
    var st := Starts(s);
    PiecesShape(s, |s|);
    assert |PiecesUpTo(s, |s|)| == |st| + 1;
    assert |ParseErrors(s)| == |Paragraphs(s)| == |st|;
    var positions := Elements(st);
    assert positions == StartPositions(s) by {
      forall i | i in StartPositions(s) ensures i in positions {
        assert i in st;
      }
    }
    assert NoDup(st);
    DistinctCard(st);
    assert |positions| == |st|;
  }

  /** The parser reads the colon-separated fields in order, each trimmed; fields
      that do not exist are undefined */
  lemma {:induction false} ParseFields(fields: seq<string>)
    requires |fields| >= 1
    requires forall k :: 0 <= k < |fields| ==> ':' !in fields[k]
    ensures var d := ParseLine(Join(fields, ':'));
      && d.file == Trim(fields[0])
      && d.line == (if |fields| > 1 then ToNumber(Trim(fields[1])) else None)
      && d.column == (if |fields| > 2 then ToNumber(Trim(fields[2])) else None)
      && d.kind == (if |fields| > 3 then Some(Trim(fields[3])) else None)
      && d.message == (if |fields| > 4 then Some(Trim(fields[4])) else None)
  {
    SplitJoin(fields, ':');
  }

  /** Everything after the fifth colon-separated field is dropped, so a message
      that itself contains a colon is cut there */
  lemma {:induction false} ExtraFieldsDropped(fields: seq<string>, tail: string)
    requires |fields| == 5
    requires forall k :: 0 <= k < |fields| ==> ':' !in fields[k]
    ensures ParseLine(Join(fields, ':') + ":" + tail) == ParseLine(Join(fields, ':'))
  {
    var rest := Split(tail, ':');
    JoinAppend(fields, rest, ':');
    SplitJoin(fields + rest, ':');
    SplitJoin(fields, ':');
    ParseFields(fields);
    ParseFields(fields + rest);
  }

  /** Rendering throws a TypeError on the first record whose message (read first)
      or type is undefined */
  datatype RenderError = UndefinedMessage(index: nat) | UndefinedType(index: nat)

  /** `line.toString()`: NaN prints as "NaN" */
  function LineText(n: Option<int>): string {
    match n
    case None => "NaN"
    case Some(i) => IntToString(i)
  }

  /** The loop of `gccColorOutput` from record `i` on: the last character of the
      message is split off as the caret and appended again after the rest of it,
      and every block but the last is followed by a newline. */
  function RenderFrom(ds: seq<Diagnostic>, i: nat): Result<string, RenderError>
    requires i <= |ds|
    decreases |ds| - i
  {
    if i == |ds| then Success("")
    else
      var d := ds[i];
      match d.message
      case None => Failure(UndefinedMessage(i))
      case Some(m) =>
        var caret := if |m| == 0 then "" else [m[|m| - 1]];
        var text := DropLast(m);
        match d.kind
        case None => Failure(UndefinedType(i))
        case Some(t) =>
          var block := t + " " + d.file + " line " + LineText(d.line) + "\n" + " " + text + caret
                       + (if i == |ds| - 1 then "" else "\n");
          match RenderFrom(ds, i + 1)
          case Failure(e) => Failure(e)
          case Success(rest) => Success(block + rest)
  }

  /** `gccColorOutput` on already parsed records */
  function Render(ds: seq<Diagnostic>): Result<string, RenderError> {
    RenderFrom(ds, 0)
  }

  /** `gccColorOutput(stderr)` */
  function GccColorOutput(stderr: string): Result<string, RenderError> {
    Render(ParseErrors(stderr))
  }

  predicate Renderable(d: Diagnostic) {
    d.message.Some? && d.kind.Some?
  }

  /** The text one record renders to, its message whole */
  function Block(d: Diagnostic): string
    requires Renderable(d)
  {
    d.kind.value + " " + d.file + " line " + LineText(d.line) + "\n " + d.message.value
  }

  function Blocks(ds: seq<Diagnostic>): (bs: seq<string>)
    requires forall k :: 0 <= k < |ds| ==> Renderable(ds[k])
    ensures |bs| == |ds|
  {
    seq(|ds|, k requires 0 <= k < |ds| => Block(ds[k]))
  }

  /** The first record that cannot be rendered is at `i` or later */
  predicate FirstUnrenderableFrom(ds: seq<Diagnostic>, i: nat, e: RenderError) {
    var j := e.index;
    && i <= j < |ds|
    && !Renderable(ds[j])
    && (e.UndefinedMessage? <==> ds[j].message.None?)
    && forall k :: i <= k < j ==> Renderable(ds[k])
  }

  /** Splitting off the caret and appending it again leaves the message intact */
  lemma RenderStep(ds: seq<Diagnostic>, i: nat)
    requires i < |ds| && Renderable(ds[i]) && RenderFrom(ds, i + 1).Success?
    ensures RenderFrom(ds, i)
         == Success(Block(ds[i]) + (if i == |ds| - 1 then "" else "\n") + RenderFrom(ds, i + 1).value)
  {
    var d, m := ds[i], ds[i].message.value;
    var caret := if |m| == 0 then "" else [m[|m| - 1]];
    var head := d.kind.value + " " + d.file + " line " + LineText(d.line);
    assert DropLast(m) + caret == m;
    assert head + "\n" + " " + DropLast(m) + caret == head + "\n " + m;
  }

  /** The blocks from `i` on are the block of record `i` followed, after a
      newline when there are more, by the blocks after it */
  lemma JoinBlocksStep(ds: seq<Diagnostic>, i: nat)
    requires i < |ds| && forall k :: i <= k < |ds| ==> Renderable(ds[k])
    ensures Join(Blocks(ds[i..]), '\n')
         == Block(ds[i]) + (if i == |ds| - 1 then "" else "\n") + Join(Blocks(ds[i + 1..]), '\n')
  {
    var bs := Blocks(ds[i..]);
    assert bs[0] == Block(ds[i]);
    assert bs[1..] == Blocks(ds[i + 1..]);
  }

  /** Rendering from `i` succeeds exactly when every record from `i` on can be
      rendered */
  lemma {:induction false} RenderFromSucceeds(ds: seq<Diagnostic>, i: nat)
    requires i <= |ds|
    decreases |ds| - i
    ensures RenderFrom(ds, i).Success? <==> forall k :: i <= k < |ds| ==> Renderable(ds[k])
  {
    if i < |ds| {
      RenderFromSucceeds(ds, i + 1);
    }
  }

  /** When it succeeds it yields the blocks from `i` on, joined by newlines */
  lemma {:induction false} RenderFromValue(ds: seq<Diagnostic>, i: nat)
    requires i <= |ds| && forall k :: i <= k < |ds| ==> Renderable(ds[k])
    decreases |ds| - i
    ensures RenderFrom(ds, i) == Success(Join(Blocks(ds[i..]), '\n'))
  {
    if i < |ds| {
      RenderFromValue(ds, i + 1);
      RenderStep(ds, i);
      JoinBlocksStep(ds, i);
    }
  }

  /** When it fails it names the first record from `i` on that cannot be rendered */
  lemma {:induction false} RenderFromFails(ds: seq<Diagnostic>, i: nat)
    requires i <= |ds| && RenderFrom(ds, i).Failure?
    decreases |ds| - i
    ensures FirstUnrenderableFrom(ds, i, RenderFrom(ds, i).error)
  {
    if Renderable(ds[i]) {
      RenderFromFails(ds, i + 1);
    }
  }

  lemma RenderFromSpec(ds: seq<Diagnostic>, i: nat)
    requires i <= |ds|
    ensures RenderFrom(ds, i).Success? <==> forall k :: i <= k < |ds| ==> Renderable(ds[k])
    ensures RenderFrom(ds, i).Success? ==> RenderFrom(ds, i).value == Join(Blocks(ds[i..]), '\n')
    ensures RenderFrom(ds, i).Failure? ==> FirstUnrenderableFrom(ds, i, RenderFrom(ds, i).error)
  {
    RenderFromSucceeds(ds, i);
    if RenderFrom(ds, i).Success? {
      RenderFromValue(ds, i);
    } else {
      RenderFromFails(ds, i);
    }
  }

  /** Rendering succeeds exactly when every record has a type and a message; it
      then yields one block per record, in order, each
      `type file line <n>` newline space `message` with the message intact,
      joined by single newlines with none at the end (no records give ""). On
      failure it names the first record that lacks either field. */
  lemma RenderSpec(ds: seq<Diagnostic>)
    ensures Render(ds).Success? <==> forall k :: 0 <= k < |ds| ==> Renderable(ds[k])
    ensures Render(ds).Success? ==> Render(ds).value == Join(Blocks(ds), '\n')
    ensures |ds| == 0 ==> Render(ds) == Success("")
    ensures Render(ds).Failure? ==> FirstUnrenderableFrom(ds, 0, Render(ds).error)
  {
    RenderFromSpec(ds, 0);
    assert ds[0..] == ds;
  }

  /** A record has a type and a message exactly when its text has at least five
      colon-separated fields */
  lemma ParseLineRenderable(text: string)
    ensures Renderable(ParseLine(text)) <==> |Split(text, ':')| >= 5
  {
    var info := TrimAll(Split(text, ':'));
    assert |info| == |Split(text, ':')|;
  }

  /** `gccColorOutput` throws exactly when some paragraph has fewer than five
      colon-separated fields */
  lemma ColorOutputFailure(stderr: string)
    ensures GccColorOutput(stderr).Failure? <==>
      exists k :: 0 <= k < |Paragraphs(stderr)| && |Split(DropLast(Paragraphs(stderr)[k]), ':')| < 5
  {
    var ps, ds := Paragraphs(stderr), ParseErrors(stderr);
    RenderSpec(ds);
    forall k | 0 <= k < |ds|
      ensures Renderable(ds[k]) <==> |Split(DropLast(ps[k]), ':')| >= 5
    {
      assert ds[k] == ParseLine(DropLast(ps[k]));
      ParseLineRenderable(DropLast(ps[k]));
    }
  }

  /** One diagnostic line followed by its newline parses to exactly one record */
  lemma {:induction false} SingleLine(line: string)
    requires |line| > 0 && IsHeadChar(line[0])
    requires forall k :: 0 <= k < |line| ==> !IsLineTerminator(line[k])
    ensures ParseErrors(line + "\n") == [ParseLine(line)]
  {
    var s := line + "\n";
    var st := Starts(s);
    assert IsParagraphStart(s, 0);
    forall j | 0 < j < |s|
      ensures !IsParagraphStart(s, j)
    {
      assert s[j - 1] == line[j - 1];
    }
    assert Elements(st) == {0};
    assert NoDup(st);
    DistinctCard(st);
    assert st == [0];
    ParagraphText(s);
    RecordText(s, 0);
    assert s[0..|s| - 1] == line;
    var ds := ParseErrors(s);
    assert |ds| == 1 && ds[0] == ParseLine(line);
  }

  /** A field gcc prints between colons: trimmed, without a colon */
  predicate IsField(t: string) {
    IsTrimmed(t) && ':' !in t
  }

  /** The line gcc prints for one diagnostic: `file:line:column: type: message` */
  function GccLine(file: string, line: nat, column: nat, kind: string, message: string): string {
    file + ":" + NatToString(line) + ":" + NatToString(column) + ": " + kind + ": " + message
  }

  lemma {:induction false} DecimalIsField(n: nat)
    ensures IsField(NatToString(n))
    ensures ToNumber(NatToString(n)) == Some(n)
  {
    NumberRoundTrip(n);
    var d := NatToString(n);
    assert DigitValue(d[0]).Some? && DigitValue(d[|d| - 1]).Some?;
    assert forall k :: 0 <= k < |d| ==> d[k] != ':' by {
      forall k | 0 <= k < |d| ensures d[k] != ':' {
        assert IsDigitIn(d[k], 10);
      }
    }
  }

  /** A trimmed field, with or without the space gcc puts after a colon, trims to
      itself */
  lemma TrimmedField(t: string)
    requires IsTrimmed(t)
    ensures Trim(t) == t && Trim(" " + t) == t
  {
    assert TrimStart(t) == t && TrimEnd(t) == t;
    assert TrimStart(" " + t) == t by {
      assert (" " + t)[1..] == t;
    }
  }

  /** The colon-separated fields of the line gcc prints */
  lemma GccLineFields(file: string, l: string, c: string, kind: string, message: string)
    ensures Join([file, l, c, " " + kind, " " + message], ':')
         == file + ":" + l + ":" + c + ": " + kind + ": " + message
  {
    var fields := [file, l, c, " " + kind, " " + message];
    assert fields[4..] == [" " + message];
    assert Join(fields[4..], ':') == " " + message;
    assert fields[3..] == [" " + kind] + fields[4..];
    assert Join(fields[3..], ':') == " " + kind + ":" + " " + message;
    assert fields[2..] == [c] + fields[3..];
    assert Join(fields[2..], ':') == c + ":" + " " + kind + ":" + " " + message;
    assert fields[1..] == [l] + fields[2..];
    assert Join(fields[1..], ':') == l + ":" + c + ":" + " " + kind + ":" + " " + message;
    assert Join(fields, ':') == file + ":" + l + ":" + c + ":" + " " + kind + ":" + " " + message;
  }

  /** Parsing the line gcc prints gives back the diagnostic it describes */
  lemma {:induction false} GccLineRoundTrip(file: string, line: nat, column: nat, kind: string, message: string)
    requires IsField(file) && IsField(kind) && IsField(message)
    ensures ParseLine(GccLine(file, line, column, kind, message))
         == Diagnostic(file, Some(line), Some(column), Some(kind), Some(message))
  {
    var l, c := NatToString(line), NatToString(column);
    var fields := [file, l, c, " " + kind, " " + message];
    GccLineFields(file, l, c, kind, message);
    DecimalIsField(line);
    DecimalIsField(column);
    assert forall k :: 0 <= k < |fields| ==> ':' !in fields[k];
    ParseFields(fields);
    TrimmedField(file);
    TrimmedField(l);
    TrimmedField(c);
    TrimmedField(kind);
    TrimmedField(message);
  }

  /** A text with no line break */
  predicate OneLine(t: string) {
    forall k :: 0 <= k < |t| ==> !IsLineTerminator(t[k])
  }

  lemma OneLineConcat(a: string, b: string)
    requires OneLine(a) && OneLine(b)
    ensures OneLine(a + b)
  {
    forall k | 0 <= k < |a + b| ensures !IsLineTerminator((a + b)[k]) {
      if k >= |a| {
        assert (a + b)[k] == b[k - |a|];
      }
    }
  }

  lemma DecimalOneLine(n: nat)
    ensures OneLine(NatToString(n))
  {
    var d := NatToString(n);
    forall k | 0 <= k < |d| ensures !IsLineTerminator(d[k]) {
      assert IsDigitIn(d[k], 10);
    }
  }

  /** A text holding just the line gcc prints for one diagnostic parses to that
      diagnostic */
  lemma {:induction false} SingleGccLine(file: string, line: nat, column: nat, kind: string, message: string)
    requires IsField(file) && IsField(kind) && IsField(message)
    requires |file| > 0 && IsHeadChar(file[0])
    requires OneLine(file) && OneLine(kind) && OneLine(message)
    ensures ParseErrors(GccLine(file, line, column, kind, message) + "\n")
         == [Diagnostic(file, Some(line), Some(column), Some(kind), Some(message))]
  {
    var l, c := NatToString(line), NatToString(column);
    DecimalOneLine(line);
    DecimalOneLine(column);
    OneLineConcat(file, ":");
    OneLineConcat(file + ":", l);
    OneLineConcat(file + ":" + l, ":");
    OneLineConcat(file + ":" + l + ":", c);
    OneLineConcat(file + ":" + l + ":" + c, ": ");
    OneLineConcat(file + ":" + l + ":" + c + ": ", kind);
    OneLineConcat(file + ":" + l + ":" + c + ": " + kind, ": ");
    OneLineConcat(file + ":" + l + ":" + c + ": " + kind + ": ", message);
    var text := GccLine(file, line, column, kind, message);
    assert text[0] == file[0];
    SingleLine(text);
    GccLineRoundTrip(file, line, column, kind, message);
  }

  lemma SmallNumerals()
    ensures NatToString(10) == "10" && NatToString(5) == "5"
  {
  }

  /** The fields of the example line meet the conditions of SingleGccLine */
  lemma ExampleFields(file: string, kind: string, message: string)
    requires file == "foo.c" && kind == "error" && message == "expected ';'"
    ensures IsField(file) && IsField(kind) && IsField(message)
    ensures |file| > 0 && IsHeadChar(file[0])
    ensures OneLine(file) && OneLine(kind) && OneLine(message)
  {
  }

  lemma ExampleText(stderr: string)
    requires stderr == "foo.c:10:5: error: expected ';'\n"
    ensures stderr == GccLine("foo.c", 10, 5, "error", "expected ';'") + "\n"
  {
    SmallNumerals();
  }

  /** The record gcc's usual one-line error becomes */
  lemma ParseExample(stderr: string)
    requires stderr == "foo.c:10:5: error: expected ';'\n"
    ensures ParseErrors(stderr) == [Diagnostic("foo.c", Some(10), Some(5), Some("error"), Some("expected ';'"))]
  {
    ExampleText(stderr);
    ExampleFields("foo.c", "error", "expected ';'");
    SingleGccLine("foo.c", 10, 5, "error", "expected ';'");
  }

  /** A single gcc line renders as `type file line N`, then the message on an
      indented line */
  lemma {:induction false} ColorOutputSingle(file: string, line: nat, column: nat, kind: string, message: string)
    requires IsField(file) && IsField(kind) && IsField(message)
    requires |file| > 0 && IsHeadChar(file[0])
    requires OneLine(file) && OneLine(kind) && OneLine(message)
    ensures GccColorOutput(GccLine(file, line, column, kind, message) + "\n")
         == Success(kind + " " + file + " line " + NatToString(line) + "\n " + message)
  {
    var d := Diagnostic(file, Some(line), Some(column), Some(kind), Some(message));
    assert ParseErrors(GccLine(file, line, column, kind, message) + "\n") == [d] by {
      SingleGccLine(file, line, column, kind, message);
    }
    assert Render([d]) == Success(Block(d)) by {
      RenderSpec([d]);
      assert Blocks([d]) == [Block(d)];
      assert Join([Block(d)], '\n') == Block(d);
    }
  }

  /** How that record is rendered */
  lemma ColorOutputExample(stderr: string)
    requires stderr == "foo.c:10:5: error: expected ';'\n"
    ensures GccColorOutput(stderr) == Success("error foo.c line 10\n expected ';'")
  {
    ExampleText(stderr);
    ExampleFields("foo.c", "error", "expected ';'");
    ColorOutputSingle("foo.c", 10, 5, "error", "expected ';'");
    SmallNumerals();
    ExampleBlock("error", "foo.c", "10", "expected ';'");
  }

  lemma ExampleBlock(kind: string, file: string, line: string, message: string)
    requires kind == "error" && file == "foo.c" && line == "10" && message == "expected ';'"
    ensures kind + " " + file + " line " + line + "\n " + message == "error foo.c line 10\n expected ';'"
  {
  }
}

=== FILE: dir_tree.dfy ===
/** `readDirRecursive`: a directory tree flattened into one listing of
    directories and one of files, every path relative to the root. The
    filesystem is replaced by an abstract scan of the tree, which also fixes the
    order in which `stat` answers and subdirectory reads complete. */
module DirTree {
  import opened Wrappers
  import opened Text
  import opened Paths
  import opened Seqs

  /** Why a directory could not be read: it does not exist, or `readdir` or a
      `stat` of one of its entries failed with an errno */
  datatype ReadError = PathMissing | ReadFailed(errno: int)

  /** What reading one directory produces. `files` and `dirs` are its own
      entries in the order their `stat` calls answered; `arrivals` are the scans
      of its subdirectories in the order their recursive reads completed. */
  datatype Scan =
    | Listed(files: seq<string>, dirs: seq<string>, arrivals: seq<Subdir>)
    | Unreadable(error: ReadError)

  datatype Subdir = Subdir(name: string, scan: Scan)

  /** The `{directories, files}` object handed to the success callback */
  datatype Listing = Listing(dirs: seq<string>, files: seq<string>) {
    function Entries(ofDirs: bool): seq<string> {
      if ofDirs then dirs else files
    }
  }

  /** The listing of a tree. A directory without subdirectories yields its own
      entries; otherwise every subdirectory's listing, nested under its name, is
      appended block by block in the order the subdirectories completed. The
      first subdirectory to fail decides the error. */
  function ReadRecursive(t: Scan): (r: Result<Listing, ReadError>)
    ensures t.Unreadable? ==> r == Failure(t.error)
    ensures t.Listed? && r.Success? ==>
      |t.dirs| <= |r.value.dirs| && r.value.dirs[..|t.dirs|] == t.dirs
      && |t.files| <= |r.value.files| && r.value.files[..|t.files|] == t.files
    ensures t.Listed? && |t.dirs| == 0 ==> r == Success(Listing(t.dirs, t.files))
    decreases t, 1
  {
    match t
    case Unreadable(e) => Failure(e)
    case Listed(files, dirs, _) =>
      if |dirs| == 0 then Success(Listing(dirs, files))
      else
        match MergeFrom(t, 0)
        case Failure(e) => Failure(e)
        case Success(m) =>
          assert (dirs + m.dirs)[..|dirs|] == dirs;
          assert (files + m.files)[..|files|] == files;
          Success(Listing(dirs + m.dirs, files + m.files))
  }

  /** The nested listings of the subdirectories that arrived at position `k`
      and later */
  function MergeFrom(t: Scan, k: nat): (r: Result<Listing, ReadError>)
    requires t.Listed? && k <= |t.arrivals|
    decreases t, 0, |t.arrivals| - k
  {
    if k == |t.arrivals| then Success(Listing([], []))
    else
      var a := t.arrivals[k];
      assert a in t.arrivals;
      match ReadRecursive(a.scan)
      case Failure(e) => Failure(e)
      case Success(sub) =>
        match MergeFrom(t, k + 1)
        case Failure(e) => Failure(e)
        case Success(rest) =>
          Success(Listing(Nest(a.name, sub.dirs) + rest.dirs, Nest(a.name, sub.files) + rest.files))
  }

  /** Reading fails somewhere in the tree: the directory itself, or (when it has
      subdirectories) any subtree */
  predicate Blocked(t: Scan)
    decreases t
  {
    match t
    case Unreadable(_) => true
    case Listed(_, dirs, arrivals) =>
      |dirs| > 0 && exists k :: 0 <= k < |arrivals| && Blocked(arrivals[k].scan)
  }

  /** A directory entry name as `readdir` gives it */
  predicate IsName(n: string) {
    |n| > 0 && '/' !in n
  }

  /** A scan that a real tree can produce: entry names are single segments
      without repeats, and every subdirectory arrives exactly once */
  predicate Wf(t: Scan)
    decreases t
  {
    match t
    case Unreadable(_) => true
    case Listed(files, dirs, arrivals) =>
      (forall i :: 0 <= i < |files| ==> IsName(files[i]))
      && (forall i :: 0 <= i < |dirs| ==> IsName(dirs[i]))
      && NoDup(files) && NoDup(dirs)
      && |arrivals| == |dirs|
      && (forall i, j :: 0 <= i < j < |arrivals| ==> arrivals[i].name != arrivals[j].name)
      && (forall k :: 0 <= k < |arrivals| ==> arrivals[k].name in dirs && Wf(arrivals[k].scan))
  }

  /** `p` lies under the entry `n`: it begins with `n + "/"` */
  predicate Within(n: string, p: string) {
    |p| > |n| && p[..|n| + 1] == n + "/"
  }

  /** What is left of `p` below `n` */
  function Below(n: string, p: string): (q: string)
    requires Within(n, p)
    ensures p == n + "/" + q
  {
    p[|n| + 1..]
  }

  /** `p` is a directory (`ofDirs`) or file of the tree, relative to its root */
  predicate InTree(t: Scan, p: string, ofDirs: bool)
    decreases t
  {
    t.Listed?
    && (p in Listing(t.dirs, t.files).Entries(ofDirs)
        || exists k :: 0 <= k < |t.arrivals|
             && Within(t.arrivals[k].name, p)
             && InTree(t.arrivals[k].scan, Below(t.arrivals[k].name, p), ofDirs))
  }

  /** A path under an entry name begins with that name, then a `/` */
  lemma WithinHead(n: string, p: string)
    requires IsName(n)
    ensures Within(n, p) ==> TakeUntil(p, '/') == n && '/' in p
  {
    if Within(n, p) {
      assert p == n + p[|n|..];
      assert p[|n|] == (n + "/")[|n|] == '/';
      TakeUntilPiece(n, p[|n|..], '/');
    }
  }

  lemma NestMember(n: string, xs: seq<string>, p: string)
    ensures p in Nest(n, xs) <==> Within(n, p) && Below(n, p) in xs
  {
    if p in Nest(n, xs) {
      var i :| 0 <= i < |xs| && Nest(n, xs)[i] == p;
      assert Nest(n, xs)[i] == n + "/" + xs[i];
      assert p[..|n| + 1] == n + "/";
      assert p[|n| + 1..] == xs[i];
    }
    if Within(n, p) && Below(n, p) in xs {
      var i :| 0 <= i < |xs| && xs[i] == Below(n, p);
      assert p == n + "/" + Below(n, p);
      assert Nest(n, xs)[i] == p;
      assert Nest(n, xs)[i] in Nest(n, xs);
    }
  }

  lemma NestNoDup(n: string, xs: seq<string>)
    requires NoDup(xs)
    ensures NoDup(Nest(n, xs))
  {
    var r := Nest(n, xs);
    forall i, j | 0 <= i < j < |r| ensures r[i] != r[j] {
      assert r[i][|n| + 1..] == xs[i] && r[j][|n| + 1..] == xs[j];
    }
  }

  /** The paths merged from arrival `k` on are exactly the tree's entries under
      those subdirectories */
  lemma {:induction false} MergeMembers(t: Scan, k: nat, ofDirs: bool)
    requires t.Listed? && k <= |t.arrivals| && Wf(t)
    requires MergeFrom(t, k).Success?
    ensures forall p :: p in MergeFrom(t, k).value.Entries(ofDirs) <==>
      exists j :: k <= j < |t.arrivals|
        && Within(t.arrivals[j].name, p)
        && InTree(t.arrivals[j].scan, Below(t.arrivals[j].name, p), ofDirs)
    decreases t, 0, |t.arrivals| - k
  {
    if k < |t.arrivals| {
      var a := t.arrivals[k];
      assert a in t.arrivals;
      var sub := ReadRecursive(a.scan).value;
      var rest := MergeFrom(t, k + 1).value;
      ReadMembers(a.scan, ofDirs);
      MergeMembers(t, k + 1, ofDirs);
      var block := Nest(a.name, sub.Entries(ofDirs));
      assert MergeFrom(t, k).value.Entries(ofDirs) == block + rest.Entries(ofDirs);
      forall p
        ensures p in MergeFrom(t, k).value.Entries(ofDirs) <==>
          exists j :: k <= j < |t.arrivals|
            && Within(t.arrivals[j].name, p)
            && InTree(t.arrivals[j].scan, Below(t.arrivals[j].name, p), ofDirs)
      {
        NestMember(a.name, sub.Entries(ofDirs), p);
        if p in block {
          assert Within(t.arrivals[k].name, p) && InTree(t.arrivals[k].scan, Below(t.arrivals[k].name, p), ofDirs);
        }
        if exists j :: k <= j < |t.arrivals|
            && Within(t.arrivals[j].name, p)
            && InTree(t.arrivals[j].scan, Below(t.arrivals[j].name, p), ofDirs)
        {
          var j :| k <= j < |t.arrivals|
            && Within(t.arrivals[j].name, p)
            && InTree(t.arrivals[j].scan, Below(t.arrivals[j].name, p), ofDirs);
          if j == k {
            assert p in block;
          } else {
            assert p in rest.Entries(ofDirs);
          }
        }
      }
    }
  }

  /** A successful listing holds exactly the tree's directories and files */
  lemma {:induction false} ReadMembers(t: Scan, ofDirs: bool)
    requires Wf(t) && ReadRecursive(t).Success?
    ensures forall p :: p in ReadRecursive(t).value.Entries(ofDirs) <==> InTree(t, p, ofDirs)
    decreases t, 1
  {
    var own := Listing(t.dirs, t.files).Entries(ofDirs);
    if |t.dirs| > 0 {
      MergeMembers(t, 0, ofDirs);
      var m := MergeFrom(t, 0).value;
      assert ReadRecursive(t).value.Entries(ofDirs) == own + m.Entries(ofDirs);
    }
  }

  /** Reading fails exactly when some part of the tree cannot be read */
  lemma {:induction false} ReadFails(t: Scan)
    ensures ReadRecursive(t).Failure? <==> Blocked(t)
    decreases t, 1
  {
    if t.Listed? && |t.dirs| > 0 {
      MergeFails(t, 0);
    }
  }

  lemma {:induction false} MergeFails(t: Scan, k: nat)
    requires t.Listed? && k <= |t.arrivals|
    ensures MergeFrom(t, k).Failure? <==>
      exists j :: k <= j < |t.arrivals| && Blocked(t.arrivals[j].scan)
    decreases t, 0, |t.arrivals| - k
  {
    if k < |t.arrivals| {
      var a := t.arrivals[k];
      assert a in t.arrivals;
      ReadFails(a.scan);
      MergeFails(t, k + 1);
      if exists j :: k <= j < |t.arrivals| && Blocked(t.arrivals[j].scan) {
        var j :| k <= j < |t.arrivals| && Blocked(t.arrivals[j].scan);
        if j > k {
          assert exists i :: k + 1 <= i < |t.arrivals| && Blocked(t.arrivals[i].scan);
        }
      }
    }
  }

  /** A path under one entry name is not under another */
  lemma WithinDistinct(a: string, b: string, p: string)
    requires IsName(a) && IsName(b) && a != b && Within(b, p)
    ensures !Within(a, p)
  {
    WithinHead(a, p);
    WithinHead(b, p);
  }

  /** The entries of arrivals of a well-formed scan are entry names */
  lemma ArrivalNames(t: Scan)
    requires t.Listed? && Wf(t)
    ensures forall k :: 0 <= k < |t.arrivals| ==> IsName(t.arrivals[k].name) && t.arrivals[k].name in t.dirs
  {
    forall k | 0 <= k < |t.arrivals|
      ensures IsName(t.arrivals[k].name)
    {
      var i :| 0 <= i < |t.dirs| && t.dirs[i] == t.arrivals[k].name;
    }
  }

  /** Merged entries never repeat */
  lemma {:induction false} MergeNoDup(t: Scan, k: nat, ofDirs: bool)
    requires t.Listed? && k <= |t.arrivals| && Wf(t)
    requires MergeFrom(t, k).Success?
    ensures NoDup(MergeFrom(t, k).value.Entries(ofDirs))
    decreases t, 0, |t.arrivals| - k
  {
    if k < |t.arrivals| {
      var a := t.arrivals[k];
      assert a in t.arrivals;
      var sub := ReadRecursive(a.scan).value;
      var rest := MergeFrom(t, k + 1).value.Entries(ofDirs);
      var block := Nest(a.name, sub.Entries(ofDirs));
      ReadNoDup(a.scan, ofDirs);
      NestNoDup(a.name, sub.Entries(ofDirs));
      MergeNoDup(t, k + 1, ofDirs);
      MergeMembers(t, k + 1, ofDirs);
      ArrivalNames(t);
      forall x | x in block ensures x !in rest {
        NestMember(a.name, sub.Entries(ofDirs), x);
        forall j | k < j < |t.arrivals| ensures !Within(t.arrivals[j].name, x) {
          WithinDistinct(t.arrivals[j].name, a.name, x);
        }
      }
      NoDupConcat(block, rest);
      assert MergeFrom(t, k).value.Entries(ofDirs) == block + rest;
    }
  }

  /** A successful listing names every directory and every file once */
  lemma {:induction false} ReadNoDup(t: Scan, ofDirs: bool)
    requires Wf(t) && ReadRecursive(t).Success?
    ensures NoDup(ReadRecursive(t).value.Entries(ofDirs))
    decreases t, 1
  {
    var own := Listing(t.dirs, t.files).Entries(ofDirs);
    assert forall i :: 0 <= i < |own| ==> IsName(own[i]);
    if |t.dirs| > 0 {
      ArrivalNames(t);
      MergeNoDup(t, 0, ofDirs);
      MergeMembers(t, 0, ofDirs);
      var m := MergeFrom(t, 0).value.Entries(ofDirs);
      forall x | x in own ensures x !in m {
        forall j | 0 <= j < |t.arrivals| ensures !Within(t.arrivals[j].name, x) {
          WithinHead(t.arrivals[j].name, x);
        }
      }
      NoDupConcat(own, m);
      assert ReadRecursive(t).value.Entries(ofDirs) == own + m;
    }
  }

  /** Merged directories have their parents among the root's own directories
      or earlier in the merge */
  lemma {:induction false} MergeParents(t: Scan, k: nat)
    requires t.Listed? && k <= |t.arrivals| && Wf(t)
    requires MergeFrom(t, k).Success?
    ensures ParentsAmong(t.dirs, MergeFrom(t, k).value.dirs)
    decreases t, 0, |t.arrivals| - k
  {
    if k < |t.arrivals| {
      var a := t.arrivals[k];
      assert a in t.arrivals;
      var sub := ReadRecursive(a.scan).value;
      var rest := MergeFrom(t, k + 1).value.dirs;
      ReadParents(a.scan);
      ParentsNest(a.name, sub.dirs);
      ArrivalNames(t);
      ParentsWiden([a.name], t.dirs, Nest(a.name, sub.dirs));
      MergeParents(t, k + 1);
      ParentsConcat(t.dirs, Nest(a.name, sub.dirs), rest);
    }
  }

  /** In a successful listing every directory's parent comes before it, whatever
      order the subdirectories completed in */
  lemma {:induction false} ReadParents(t: Scan)
    requires Wf(t) && ReadRecursive(t).Success?
    ensures ParentsFirst(ReadRecursive(t).value.dirs)
    decreases t, 1
  {
    assert forall i :: 0 <= i < |t.dirs| ==> '/' !in t.dirs[i];
    if |t.dirs| > 0 {
      MergeParents(t, 0);
      ParentsAfterRoots(t.dirs, MergeFrom(t, 0).value.dirs);
    } else {
      assert ParentsAmong(t.dirs, []);
      ParentsAfterRoots(t.dirs, []);
      assert t.dirs + [] == t.dirs;
    }
  }
}

=== FILE: numbers.dfy ===
/** Numbers as the diagnostic parser and renderer see them: the unary `+` that
    turns a trimmed field into a number, and `Number.prototype.toString` of the
    result, as ECMAScript 5.1 defines them (the language of Node.js 0.10).
    Only integer values are modelled; `None` stands for `NaN`. */
module Numbers {
  import opened Wrappers

  /** Value of a hexadecimal digit character, None for every other character */
  function DigitValue(c: char): Option<nat> {
    if '0' <= c <= '9' then Some(c as int - '0' as int)
    else if 'a' <= c <= 'f' then Some(c as int - 'a' as int + 10)
    else if 'A' <= c <= 'F' then Some(c as int - 'A' as int + 10)
    else None
  }

  predicate IsDigitIn(c: char, radix: nat) {
    DigitValue(c).Some? && DigitValue(c).value < radix
  }

  predicate AllDigitsIn(s: string, radix: nat) {
    forall k :: 0 <= k < |s| ==> IsDigitIn(s[k], radix)
  }

  /** The value of a digit string in the given radix, most significant digit first */
  function ValueIn(s: string, radix: nat): nat
    requires AllDigitsIn(s, radix)
  {
    if |s| == 0 then 0
    else ValueIn(s[..|s| - 1], radix) * radix + DigitValue(s[|s| - 1]).value
  }

  /** Characters that may occur in an integer literal `Number` accepts */
  predicate IsNumeralChar(c: char) {
    DigitValue(c).Some? || c in "xX+-"
  }

  /** The integer literals `Number` reads: the empty text, decimal digits with
      at most one sign, and `0x` or `0X` followed by hexadecimal digits */
  predicate IsIntegerLiteral(t: string) {
    || |t| == 0
    || (|t| > 0 && AllDigitsIn(t, 10))
    || (|t| > 1 && t[0] in "+-" && AllDigitsIn(t[1..], 10))
    || (|t| > 2 && t[0] == '0' && t[1] in "xX" && AllDigitsIn(t[2..], 16))
  }

  /** `+t` for a field that has already been trimmed. The empty text is 0; a
      decimal literal may carry one sign; a `0x` literal may not. Every other
      text is NaN here, `0o` and `0b` prefixes included, which ECMAScript 5.1
      does not know (see README for the literal forms with a fraction or an
      exponent). */
  function ToNumber(t: string): (n: Option<int>)
    ensures n.Some? <==> IsIntegerLiteral(t)
    ensures |t| == 0 ==> n == Some(0)
    ensures n.Some? ==> forall k :: 0 <= k < |t| ==> IsNumeralChar(t[k])
    ensures n.Some? && |t| > 0 ==> exists k :: 0 <= k < |t| && IsDigitIn(t[k], 10)
    ensures n.Some? && |t| > 0 ==> DigitValue(t[|t| - 1]).Some?
    ensures |t| > 0 && AllDigitsIn(t, 10) ==> n == Some(ValueIn(t, 10))
    ensures |t| > 1 && t[0] in "+-" && AllDigitsIn(t[1..], 10) ==>
      n == Some((if t[0] == '-' then -1 else 1) * ValueIn(t[1..], 10))
    ensures |t| > 2 && t[0] == '0' && t[1] in "xX" && AllDigitsIn(t[2..], 16) ==> n == Some(ValueIn(t[2..], 16))
  {
    if |t| == 0 then Some(0)
    else if |t| > 2 && t[0] == '0' && t[1] in "xX" then
      if AllDigitsIn(t[2..], 16) then
        assert DigitValue(t[0]).Some?;
        Some(ValueIn(t[2..], 16))
      else
        assert !AllDigitsIn(t, 10) by {
          assert !IsDigitIn(t[1], 10);
        }
        None
    else if t[0] in "+-" then
      if |t| > 1 && AllDigitsIn(t[1..], 10) then
        assert DigitValue(t[1]).Some?;
        var v: int := ValueIn(t[1..], 10);
        Some(if t[0] == '-' then -v else v)
      else None
    else if AllDigitsIn(t, 10) then
      assert DigitValue(t[0]).Some?;
      Some(ValueIn(t, 10))
    else None
  }

  function DecimalDigit(d: nat): (c: char)
    requires d < 10
    ensures DigitValue(c) == Some(d)
  {
    "0123456789"[d]
  }

  /** Decimal text of a natural number, with no leading zero */
  function NatToString(n: nat): (s: string)
    ensures |s| >= 1 && AllDigitsIn(s, 10)
    ensures ValueIn(s, 10) == n
    ensures |s| > 1 ==> s[0] != '0'
  {
    if n < 10 then [DecimalDigit(n)]
    else
      var s := NatToString(n / 10) + [DecimalDigit(n % 10)];
      assert s[..|s| - 1] == NatToString(n / 10);
      s
  }

  /** `i.toString()` for an integer value */
  function IntToString(i: int): string {
    if i < 0 then "-" + NatToString(-i) else NatToString(i)
  }

  /** Text that is not a numeral is NaN, even when it is made of hexadecimal
      digits */
  lemma NotNumberExamples()
    ensures ToNumber("abc") == None && ToNumber("face") == None && ToNumber("0x") == None
  {
  }

  /** Leading zeros, a sign and a hexadecimal prefix are read as `Number` reads
      them */
  lemma NumberExamples()
    ensures ToNumber("007") == Some(7) && ToNumber("+5") == Some(5) && ToNumber("-12") == Some(-12)
    ensures ToNumber("0x1A") == Some(26) && ToNumber("") == Some(0)
  {
    assert AllDigitsIn("007", 10) && ValueIn("007", 10) == 7 by {
      assert "007"[..2] == "00" && "00"[..1] == "0" && "0"[..0] == "";
    }
    assert ValueIn("12", 10) == 12 by {
      assert "12"[..1] == "1" && "1"[..0] == "";
    }
    assert "-12"[1..] == "12" && "+5"[1..] == "5" && "0x1A"[2..] == "1A";
    assert ValueIn("1A", 16) == 26 by {
      assert "1A"[..1] == "1" && "1"[..0] == "";
    }
  }

  /** Numeral characters out of literal order are NaN */
  lemma GarbledExamples()
    ensures ToNumber("1-2") == None && ToNumber("--5") == None
  {
  }

  /** A second prefix is NaN, and so are the `0o` and `0b` prefixes */
  lemma PrefixExamples()
    ensures ToNumber("0x0x1") == None && ToNumber("0o17") == None && ToNumber("0b1") == None
  {
  }

  /** Rendering a number and reading it back gives the number */
  lemma NumberRoundTrip(i: int)
    ensures ToNumber(IntToString(i)) == Some(i)
  {
    var s := IntToString(i);
    if i < 0 {
      assert s[1..] == NatToString(-i);
    } else {
      var d := NatToString(i);
      assert d[0] in "0123456789";
    }
  }
}

=== FILE: paths.dfy ===
/** Path texts as the orchestrator handles them: `/`-separated, relative to a
    root, with the extension taken from the last `.` of the base name. */
module Paths {
  import opened Wrappers
  import opened Text

  /** `path.split('/').pop()`: the last `/`-separated segment, which is the
      text after the last `/` */
  function BaseName(path: string): (name: string)
    ensures '/' !in name
    ensures |name| <= |path| && path[|path| - |name|..] == name
    ensures |name| < |path| ==> path[|path| - |name| - 1] == '/'
  {
    AfterLastShape(path, '/');
    LastPieceIsAfterLast(path, '/');
    Last(Split(path, '/'))
  }

  /** The key a file is classified under: None when its base name has no `.`,
      otherwise `name.split('.').pop()`, the text after its last `.` */
  function Extension(path: string): (e: Option<string>)
    ensures e.Some? <==> '.' in BaseName(path)
    ensures e.Some? ==> '.' !in e.value && '/' !in e.value
  {
    var name := BaseName(path);
    if '.' !in name then None
    else
      DotSuffix(name);
      LastPieceIsAfterLast(name, '.');
      Some(Last(Split(name, '.')))
  }

  /** The text after the last `.` of a name holding one and no `/` is a
      `/`-free, `.`-free suffix preceded by that `.` */
  lemma DotSuffix(name: string)
    requires '/' !in name && '.' in name
    ensures var e := AfterLast(name, '.');
      '.' !in e && '/' !in e
      && |e| < |name| && name == name[..|name| - |e| - 1] + "." + e
  {
    AfterLastShape(name, '.');
    var e := AfterLast(name, '.');
    assert forall k :: 0 <= k < |e| ==> e[k] == name[|name| - |e| + k];
    var i := |name| - |e| - 1;
    assert name == name[..i] + [name[i]] + name[i + 1..];
  }

  /** A file's extension is what follows the last `.` of its base name */
  lemma ExtensionSuffix(path: string)
    requires Extension(path).Some?
    ensures var name, e := BaseName(path), Extension(path).value;
      exists stem :: name == stem + "." + e
  {
    var name := BaseName(path);
    DotSuffix(name);
    var e := AfterLast(name, '.');
    LastPieceIsAfterLast(name, '.');
    assert Extension(path) == Some(e);
    var stem := name[..|name| - |e| - 1];
    assert name == stem + "." + e;
  }

  /** Text without a `/` appended to a path extends its base name */
  lemma BaseNameOfSuffix(stem: string, tail: string)
    requires '/' !in tail
    ensures BaseName(stem + tail) == BaseName(stem) + tail
  {
    var p := stem + tail;
    LastPieceIsAfterLast(p, '/');
    LastPieceIsAfterLast(stem, '/');
    LastIndexOfAppend(stem, tail, '/');
    var j := LastIndexOf(stem, '/');
    assert p[j + 1..] == stem[j + 1..] + tail;
  }

  /** The text after the last `.` of `pre.e`, when `e` has no dot, is `e` */
  lemma AfterLastDot(pre: string, e: string)
    requires '.' !in e
    ensures AfterLast(pre + "." + e, '.') == e
  {
    LastIndexOfAppend(pre + ".", e, '.');
    LastIndexOfAppend(pre, ".", '.');
    assert LastIndexOf(".", '.') == 0;
    assert (pre + "." + e)[|pre| + 1..] == e;
  }

  /** A base name ending in `.e`, where `e` has no dot, gives `e` */
  lemma ExtensionOfName(path: string, b: string, e: string)
    requires '.' !in e
    requires BaseName(path) == b + "." + e
    ensures Extension(path) == Some(e)
  {
    var name := b + "." + e;
    assert name[|b|] == '.';
    LastPieceIsAfterLast(name, '.');
    AfterLastDot(b, e);
  }

  /** A path ending in `.e`, where `e` has neither a dot nor a `/`, is
      classified under `e` */
  lemma ExtensionOfSuffix(stem: string, e: string)
    requires '.' !in e && '/' !in e
    ensures Extension(stem + "." + e) == Some(e)
  {
    var tail := "." + e;
    assert '/' !in tail by {
      assert forall k :: 1 <= k < |tail| ==> tail[k] == e[k - 1];
    }
    BaseNameOfSuffix(stem, tail);
    assert stem + "." + e == stem + tail;
    ExtensionOfName(stem + "." + e, BaseName(stem), e);
  }

  /** A dot in a directory segment does not give a file an extension */
  lemma ExtensionIgnoresDirectories(dir: string, name: string)
    requires '/' !in name && '.' !in name
    ensures Extension(dir + "/" + name) == None
  {
    var p := dir + "/" + name;
    LastPieceIsAfterLast(p, '/');
    LastIndexOfAppend(dir + "/", name, '/');
    LastIndexOfAppend(dir, "/", '/');
    assert LastIndexOf("/", '/') == 0;
    assert LastIndexOf(p, '/') == |dir|;
    assert p[|dir| + 1..] == name;
  }

  /** The directory part of a path holding a `/`: everything before the last `/` */
  function Parent(path: string): (dir: string)
    requires '/' in path
    ensures |dir| < |path| && path[..|dir|] == dir && path[|dir|] == '/'
    ensures '/' !in path[|dir| + 1..]
  {
    var i := LastIndexOf(path, '/');
    path[..i]
  }

  /** The parent of `dir/q`: `dir` itself when `q` is one segment, otherwise
      `dir/` followed by the parent of `q` */
  lemma ParentOfNested(dir: string, q: string)
    ensures '/' !in q ==> Parent(dir + "/" + q) == dir
    ensures '/' in q ==> Parent(dir + "/" + q) == dir + "/" + Parent(q)
  {
    var p := dir + "/" + q;
    LastIndexOfAppend(dir + "/", q, '/');
    LastIndexOfAppend(dir, "/", '/');
    assert LastIndexOf("/", '/') == 0;
    if '/' in q {
      assert p[..|dir| + 1 + LastIndexOf(q, '/')] == dir + "/" + q[..LastIndexOf(q, '/')];
    } else {
      assert p[..|dir|] == dir;
    }
  }

  /** Each path prefixed with `dir + "/"` */
  function Nest(dir: string, paths: seq<string>): (r: seq<string>)
    ensures |r| == |paths|
    ensures forall i :: 0 <= i < |paths| ==> r[i] == dir + "/" + paths[i]
  {
    if |paths| == 0 then []
    else [dir + "/" + paths[0]] + Nest(dir, paths[1..])
  }

  /** Every path holding a `/` has its parent among `roots` or earlier in `ds` */
  predicate ParentsAmong(roots: seq<string>, ds: seq<string>) {
    forall i :: 0 <= i < |ds| && '/' in ds[i] ==> Parent(ds[i]) in roots || Parent(ds[i]) in ds[..i]
  }

  /** Every directory path's parent comes before it */
  predicate ParentsFirst(ds: seq<string>) {
    ParentsAmong([], ds)
  }

  /** Nesting a parents-first list under `dir` needs only `dir` before it */
  lemma {:induction false} ParentsNest(dir: string, ds: seq<string>)
    requires ParentsFirst(ds)
    ensures ParentsAmong([dir], Nest(dir, ds))
  {
    var r := Nest(dir, ds);
    forall i | 0 <= i < |r| && '/' in r[i]
      ensures Parent(r[i]) in [dir] || Parent(r[i]) in r[..i]
    {
      ParentOfNested(dir, ds[i]);
      if '/' in ds[i] {
        var j :| 0 <= j < i && ds[..i][j] == Parent(ds[i]);
        assert r[..i][j] == r[j] == dir + "/" + ds[j];
      }
    }
  }

  lemma ParentsConcat(roots: seq<string>, x: seq<string>, y: seq<string>)
    requires ParentsAmong(roots, x) && ParentsAmong(roots, y)
    ensures ParentsAmong(roots, x + y)
  {
    var r := x + y;
    forall i | 0 <= i < |r| && '/' in r[i]
      ensures Parent(r[i]) in roots || Parent(r[i]) in r[..i]
    {
      if i < |x| {
        assert r[i] == x[i] && r[..i] == x[..i];
      } else {
        assert r[i] == y[i - |x|] && r[..i] == x + y[..i - |x|];
      }
    }
  }

  lemma ParentsWiden(roots: seq<string>, wider: seq<string>, ds: seq<string>)
    requires forall d :: d in roots ==> d in wider
    requires ParentsAmong(roots, ds)
    ensures ParentsAmong(wider, ds)
  {
  }

  /** Single-segment roots followed by paths whose parents lie among them or
      before them form a parents-first list */
  lemma ParentsAfterRoots(roots: seq<string>, ds: seq<string>)
    requires forall i :: 0 <= i < |roots| ==> '/' !in roots[i]
    requires ParentsAmong(roots, ds)
    ensures ParentsFirst(roots + ds)
  {
    var r := roots + ds;
    forall i | 0 <= i < |r| && '/' in r[i]
      ensures Parent(r[i]) in [] || Parent(r[i]) in r[..i]
    {
      assert forall j :: 0 <= j < |roots| ==> r[j] == roots[j];
      assert i >= |roots|;
      assert r[i] == ds[i - |roots|] && r[..i] == roots + ds[..i - |roots|];
    }
  }

  /** A list whose head comes before the rest: the rest may use the head as a
      parent */
  lemma ParentsAppend(roots: seq<string>, x: seq<string>, y: seq<string>)
    requires ParentsAmong(roots, x) && ParentsAmong(roots + x, y)
    ensures ParentsAmong(roots, x + y)
  {
    var r := x + y;
    forall i | 0 <= i < |r| && '/' in r[i]
      ensures Parent(r[i]) in roots || Parent(r[i]) in r[..i]
    {
      if i < |x| {
        assert r[i] == x[i] && r[..i] == x[..i];
      } else {
        assert r[i] == y[i - |x|] && r[..i] == x + y[..i - |x|];
      }
    }
  }

  /** Staging the head of a list makes it available to the rest */
  lemma ParentsShift(roots: seq<string>, x: string, ys: seq<string>)
    requires ParentsAmong(roots, [x] + ys)
    ensures ParentsAmong(roots + [x], ys)
  {
    var r := [x] + ys;
    forall i | 0 <= i < |ys| && '/' in ys[i]
      ensures Parent(ys[i]) in roots + [x] || Parent(ys[i]) in ys[..i]
    {
      assert r[i + 1] == ys[i] && r[..i + 1] == [x] + ys[..i];
    }
  }
}

=== FILE: planning.dfy ===
/** `compile`, `link`, `addLibrary`, `addLibraries` and the program choice in
    `exec`: the compiler and linker invocations the orchestrator plans, and the
    library list it keeps. Spawning processes is replaced by the planned
    (program, arguments) pairs. */
module Planning {
  import opened Wrappers
  import opened Text
  import opened Paths
  import opened DirTree
  import opened Classify
  import opened Staging

  /** The options record, with the compilers, library list, paths and source
      extensions it holds */
  datatype Config = Config(
    cCompiler: string,
    cppCompiler: string,
    libraries: seq<string>,
    build: string,
    source: string,
    includes: seq<string>,
    cExt: string,
    cppExt: string)

  /** The options before any user setting */
  const Defaults: Config := Config("gcc", "g++", [], "build", "src", [], "c", "cpp")

  /** What `exec(cmd, params, ...)` is asked to run */
  datatype Request = Request(command: string, args: seq<string>)

  /** What `child_process.spawn` is given */
  datatype Invocation = Invocation(program: string, args: seq<string>)

  /** `exec` as written: the requested command is ignored and the C compiler is
      spawned */
  function SpawnAsWritten(cfg: Config, req: Request): Invocation {
    Invocation(cfg.cCompiler, req.args)
  }

  /** `exec` as evidently intended: the requested command is spawned */
  function Spawn(req: Request): Invocation {
    Invocation(req.command, req.args)
  }

  /** Every entry of `xs` with `flag` in front, in order */
  function Flags(flag: string, xs: seq<string>): (r: seq<string>)
    ensures |r| == |xs|
    ensures forall i :: 0 <= i < |xs| ==> r[i] == flag + xs[i]
  {
    if |xs| == 0 then [] else [flag + xs[0]] + Flags(flag, xs[1..])
  }

  /** The arguments that compile one source file, given relative to the source
      directory */
  function CompileArgs(cfg: Config, file: string): seq<string> {
    ["-c", cfg.source + "/" + file, "-o", cfg.build + "/.luo/" + file + ".o"]
      + Flags("-I", cfg.includes)
  }

  /** One compile request per file, all for the same compiler */
  function CompileRequestsFor(cfg: Config, compiler: string, files: seq<string>): (r: seq<Request>)
    ensures |r| == |files|
    ensures forall i :: 0 <= i < |files| ==>
      r[i].command == compiler && r[i].args == CompileArgs(cfg, files[i])
  {
    if |files| == 0 then []
    else [Request(compiler, CompileArgs(cfg, files[0]))] + CompileRequestsFor(cfg, compiler, files[1..])
  }

  /** The files of a grouping under `ext`; a missing key compiles nothing */
  function Group(groups: map<string, seq<string>>, ext: string): seq<string> {
    if ext in groups then groups[ext] else []
  }

  /** The compile requests for a grouping: the C files, then the C++ files */
  function CompileRequests(cfg: Config, groups: map<string, seq<string>>): seq<Request> {
    CompileRequestsFor(cfg, cfg.cCompiler, Group(groups, cfg.cExt))
      + CompileRequestsFor(cfg, cfg.cppCompiler, Group(groups, cfg.cppExt))
  }

  /** The library list with `stdc++` appended unless it is already there */
  function WithStdCpp(libs: seq<string>): (r: seq<string>)
    ensures "stdc++" in r
    ensures |libs| <= |r| <= |libs| + 1 && r[..|libs|] == libs
    ensures r == libs <==> "stdc++" in libs
  {
    if "stdc++" in libs then libs else libs + ["stdc++"]
  }

  /** Adding `stdc++` twice is adding it once */
  lemma WithStdCppIdempotent(libs: seq<string>)
    ensures WithStdCpp(WithStdCpp(libs)) == WithStdCpp(libs)
  {
  }

  /** The library list after `compile` has seen a grouping */
  function PlanLibraries(cfg: Config, groups: map<string, seq<string>>): seq<string> {
    if cfg.cppExt in groups then WithStdCpp(cfg.libraries) else cfg.libraries
  }

  /** `addLibrary(lib)`: `lib` is appended even when it is already listed */
  function AddLibrary(cfg: Config, lib: string): (r: Config)
    ensures |r.libraries| == |cfg.libraries| + 1 && r.libraries[..|cfg.libraries|] == cfg.libraries
    ensures multiset(r.libraries)[lib] == multiset(cfg.libraries)[lib] + 1
    ensures r == cfg.(libraries := r.libraries)
  {
    cfg.(libraries := cfg.libraries + [lib])
  }

  /** `addLibraries(libs)`: the list is concatenated as it is */
  function AddLibraries(cfg: Config, libs: seq<string>): (r: Config)
    ensures r == cfg.(libraries := r.libraries)
  {
    cfg.(libraries := cfg.libraries + libs)
  }

  /** Adding a list of libraries is adding them one by one, in order */
  lemma {:induction false} AddLibrariesOneByOne(cfg: Config, libs: seq<string>)
    ensures AddLibraries(cfg, libs) == AddEach(cfg, libs)
    decreases |libs|
  {
    if |libs| > 0 {
      var next := AddLibrary(cfg, libs[0]);
      assert AddLibraries(next, libs[1..]) == AddLibraries(cfg, libs) by {
        assert next.libraries + libs[1..] == cfg.libraries + [libs[0]] + libs[1..] == cfg.libraries + libs;
      }
      AddLibrariesOneByOne(next, libs[1..]);
    } else {
      assert cfg.libraries + libs == cfg.libraries;
    }
  }

  function AddEach(cfg: Config, libs: seq<string>): Config
    decreases |libs|
  {
    if |libs| == 0 then cfg else AddEach(AddLibrary(cfg, libs[0]), libs[1..])
  }

  /** Why a build step stopped before spawning: a tree that could not be read,
      a directory that could not be created, a link step without objects, or
      (in the code as written) a file grouped under an inherited property name */
  datatype BuildError =
    | ListFailed(read: ReadError)
    | StageFailed(os: OsError)
    | NoObjects
    | GroupingThrew(key: string)

  /** What `compile` has done when it spawns the compilers: the options with
      the updated library list, and the invocations */
  datatype CompilePlan = CompilePlan(cfg: Config, spawned: seq<Invocation>)

  /** What `compile` hands to `exec`: the options with the updated library
      list, and one request per source file */
  datatype CompileOrders = CompileOrders(cfg: Config, requests: seq<Request>)

  /** The filesystem as `compile` finds it: the source tree as the first read
      sees it, the directories present and the oracle answering `fs.mkdir`, and
      the source tree as the second read sees it */
  datatype CompileEnv = CompileEnv(
    stagingTree: Scan,
    existing: set<string>,
    mkdir: (set<string>, string) -> Option<OsError>,
    sourceTree: Scan)

  function SpawnAll(reqs: seq<Request>): (r: seq<Invocation>)
    ensures |r| == |reqs| && forall i :: 0 <= i < |reqs| ==> r[i] == Spawn(reqs[i])
  {
    if |reqs| == 0 then [] else [Spawn(reqs[0])] + SpawnAll(reqs[1..])
  }

  function SpawnAllAsWritten(cfg: Config, reqs: seq<Request>): (r: seq<Invocation>)
    ensures |r| == |reqs| && forall i :: 0 <= i < |reqs| ==> r[i] == SpawnAsWritten(cfg, reqs[i])
  {
    if |reqs| == 0 then [] else [SpawnAsWritten(cfg, reqs[0])] + SpawnAllAsWritten(cfg, reqs[1..])
  }

  /** `compile` up to its grouping: list the source tree, stage the build
      directories and list the source tree again */
  function CompileSources(cfg: Config, env: CompileEnv): Result<Listing, BuildError> {
    match ReadRecursive(env.stagingTree)
    case Failure(e) => Failure(ListFailed(e))
    case Success(listing) =>
      var report := Mkdirs(StagingList(cfg.build, listing.dirs), env.existing, env.mkdir);
      if report.error.Some? then Failure(StageFailed(report.error.value))
      else
        match ReadRecursive(env.sourceTree)
        case Failure(e) => Failure(ListFailed(e))
        case Success(sources) => Success(sources)
  }

  /** What `compile` hands to `exec` once the source files are grouped: one
      compiler run per C or C++ file */
  function OrdersFor(cfg: Config, groups: map<string, seq<string>>): CompileOrders {
    CompileOrders(cfg.(libraries := PlanLibraries(cfg, groups)), CompileRequests(cfg, groups))
  }

  /** `compile` up to its calls of `exec`, with the intended grouping */
  function CompileOrdersFor(cfg: Config, env: CompileEnv): Result<CompileOrders, BuildError> {
    match CompileSources(cfg, env)
    case Failure(e) => Failure(e)
    case Success(sources) => Success(OrdersFor(cfg, FilesByExtension(sources.files)))
  }

  /** `compile` with `exec` as evidently intended */
  function Compile(cfg: Config, env: CompileEnv): Result<CompilePlan, BuildError> {
    match CompileOrdersFor(cfg, env)
    case Failure(e) => Failure(e)
    case Success(orders) => Success(CompilePlan(orders.cfg, SpawnAll(orders.requests)))
  }

  /** `compile` as written: the grouping throws on a file classified under an
      inherited property name, and `exec` spawns the C compiler for every run */
  function CompileAsWritten(cfg: Config, env: CompileEnv): Result<CompilePlan, BuildError> {
    match CompileSources(cfg, env)
    case Failure(e) => Failure(e)
    case Success(sources) =>
      match FilesByExtensionAsWritten(sources.files)
      case Failure(key) => Failure(GroupingThrew(key))
      case Success(groups) =>
        var orders := OrdersFor(cfg, groups);
        Success(CompilePlan(orders.cfg, SpawnAllAsWritten(cfg, orders.requests)))
  }

  /** The arguments of the link step: a `-l` flag per library, every object
      path below the `.luo` directory, and the output named after the last
      segment of the working directory */
  function LinkArgs(cfg: Config, objects: seq<string>, cwd: string): seq<string> {
    Flags("-l", cfg.libraries) + Nest(cfg.build + "/.luo", objects)
      + ["-o", cfg.build + "/" + Last(Split(cwd, '/'))]
  }

  /** `link`: list the `.luo` tree and plan one run of the C compiler over the
      files under the `o` key; without that key `files.o.map` throws */
  function Link(cfg: Config, objectTree: Scan, cwd: string): Result<Invocation, BuildError> {
    match ReadRecursive(objectTree)
    case Failure(e) => Failure(ListFailed(e))
    case Success(listing) =>
      var groups := FilesByExtension(listing.files);
      if "o" !in groups then Failure(NoObjects)
      else Success(Spawn(Request(cfg.cCompiler, LinkArgs(cfg, groups["o"], cwd))))
  }

  /** The files `compile` compiles under one extension are exactly the listed
      files classified under it, in listing order */
  lemma GroupIsFilter(files: seq<string>, ext: string)
    ensures Group(FilesByExtension(files), ext) == FilesWithExtension(files, ext)
  {
    ByExtensionSpec(files);
    if !Occurs(files, ext) {
      NoneWithExtension(files, ext);
    }
  }

  /** A successful `compile` spawns, in order, one compiler per C file and then
      one per C++ file of the source listing, each with the arguments for that
      file, and adds `stdc++` to the libraries exactly when a C++ file occurs */
  lemma {:induction false} CompilePlanSpec(cfg: Config, env: CompileEnv)
    requires Compile(cfg, env).Success?
    ensures ReadRecursive(env.sourceTree).Success?
    ensures var files := ReadRecursive(env.sourceTree).value.files;
      var plan := Compile(cfg, env).value;
      && plan.spawned == SpawnAll(
           CompileRequestsFor(cfg, cfg.cCompiler, FilesWithExtension(files, cfg.cExt))
           + CompileRequestsFor(cfg, cfg.cppCompiler, FilesWithExtension(files, cfg.cppExt)))
      && plan.cfg == cfg.(libraries := if Occurs(files, cfg.cppExt) then WithStdCpp(cfg.libraries) else cfg.libraries)
  {
    var files := ReadRecursive(env.sourceTree).value.files;
    GroupIsFilter(files, cfg.cExt);
    GroupIsFilter(files, cfg.cppExt);
    ByExtensionSpec(files);
  }

  /** `compile` stops before spawning anything exactly when some part of a
      tree cannot be read or a staging `mkdir` fails; an unreadable first
      listing decides the error */
  lemma CompileFailure(cfg: Config, env: CompileEnv)
    ensures var staging := ReadRecursive(env.stagingTree);
      Compile(cfg, env).Failure? <==>
        || Blocked(env.stagingTree)
        || (staging.Success?
            && Mkdirs(StagingList(cfg.build, staging.value.dirs), env.existing, env.mkdir).error.Some?)
        || Blocked(env.sourceTree)
    ensures Blocked(env.stagingTree) ==>
      && ReadRecursive(env.stagingTree).Failure?
      && Compile(cfg, env) == Failure(ListFailed(ReadRecursive(env.stagingTree).error))
  {
    ReadFails(env.stagingTree);
    ReadFails(env.sourceTree);
  }

  /** The invocation at position `i` compiles the `i`-th file of both lists
      together */
  lemma SpawnedArgs(cfg: Config, cs: seq<string>, cpps: seq<string>)
    ensures var spawned := SpawnAll(CompileRequestsFor(cfg, cfg.cCompiler, cs)
                                    + CompileRequestsFor(cfg, cfg.cppCompiler, cpps));
      |spawned| == |cs + cpps|
      && forall i :: 0 <= i < |spawned| ==> spawned[i].args == CompileArgs(cfg, (cs + cpps)[i])
  {
    var a, b := CompileRequestsFor(cfg, cfg.cCompiler, cs), CompileRequestsFor(cfg, cfg.cppCompiler, cpps);
    var spawned := SpawnAll(a + b);
    forall i | 0 <= i < |spawned| ensures spawned[i].args == CompileArgs(cfg, (cs + cpps)[i]) {
      if i < |a| {
        assert (a + b)[i] == a[i] && (cs + cpps)[i] == cs[i];
      } else {
        assert (a + b)[i] == b[i - |a|] && (cs + cpps)[i] == cpps[i - |a|];
      }
    }
  }

  /** The invocations for two lists of files compile exactly the files of
      either list */
  lemma SpawnedFor(cfg: Config, cs: seq<string>, cpps: seq<string>, f: string)
    ensures var spawned := SpawnAll(CompileRequestsFor(cfg, cfg.cCompiler, cs)
                                    + CompileRequestsFor(cfg, cfg.cppCompiler, cpps));
      (exists i :: 0 <= i < |spawned| && spawned[i].args == CompileArgs(cfg, f))
      <==> f in cs || f in cpps
  {
    var spawned := SpawnAll(CompileRequestsFor(cfg, cfg.cCompiler, cs)
                            + CompileRequestsFor(cfg, cfg.cppCompiler, cpps));
    var all := cs + cpps;
    assert f in all <==> f in cs || f in cpps;
    if exists i :: 0 <= i < |spawned| && spawned[i].args == CompileArgs(cfg, f) {
      var i :| 0 <= i < |spawned| && spawned[i].args == CompileArgs(cfg, f);
      assert f in all by {
        SpawnedArgs(cfg, cs, cpps);
        CompileArgsInjective(cfg, f, all[i]);
        assert all[i] in all;
      }
    }
    if f in all {
      var i :| 0 <= i < |all| && all[i] == f;
      assert i < |spawned| && spawned[i].args == CompileArgs(cfg, f) by {
        SpawnedArgs(cfg, cs, cpps);
      }
    }
  }

  /** Every spawned compiler compiles a listed file of the C or C++ extension,
      and every such file is compiled; files under any other key are not */
  lemma CompiledFiles(cfg: Config, env: CompileEnv, f: string)
    requires Compile(cfg, env).Success?
    ensures ReadRecursive(env.sourceTree).Success?
    ensures var files := ReadRecursive(env.sourceTree).value.files;
      var spawned := Compile(cfg, env).value.spawned;
      (exists i :: 0 <= i < |spawned| && spawned[i].args == CompileArgs(cfg, f))
      <==> f in files && (Extension(f) == Some(cfg.cExt) || Extension(f) == Some(cfg.cppExt))
  {
    CompilePlanSpec(cfg, env);
    var files := ReadRecursive(env.sourceTree).value.files;
    SpawnedFor(cfg, FilesWithExtension(files, cfg.cExt), FilesWithExtension(files, cfg.cppExt), f);
  }

  /** Different files get different compile arguments */
  lemma CompileArgsInjective(cfg: Config, f: string, g: string)
    requires CompileArgs(cfg, f) == CompileArgs(cfg, g)
    ensures f == g
  {
    assert CompileArgs(cfg, f)[1] == cfg.source + "/" + f;
    assert CompileArgs(cfg, g)[1] == cfg.source + "/" + g;
    assert f == (cfg.source + "/" + f)[|cfg.source| + 1..];
    assert g == (cfg.source + "/" + g)[|cfg.source| + 1..];
  }

  /** Running `compile` again over the same tree leaves the library list as the
      first run left it */
  lemma CompileLibrariesSettle(cfg: Config, env: CompileEnv)
    requires Compile(cfg, env).Success?
    ensures var again := Compile(Compile(cfg, env).value.cfg, env);
      again.Success? && again.value.cfg == Compile(cfg, env).value.cfg
  {
    var files := ReadRecursive(env.sourceTree).value.files;
    var groups := FilesByExtension(files);
    if cfg.cppExt in groups {
      WithStdCppIdempotent(cfg.libraries);
    }
  }

  /** On a POSIX-like filesystem where the build directory's parent exists,
      `compile` over a readable, well-formed source tree always reaches the
      compilers */
  lemma CompileReachesCompilers(cfg: Config, t: Scan, existing: set<string>)
    requires Wf(t) && ReadRecursive(t).Success?
    requires '/' !in cfg.build || Parent(cfg.build) in existing
    ensures Compile(cfg, CompileEnv(t, existing, IdealMkdir, t)).Success?
  {
    CompileStagingSucceeds(cfg.build, t, existing);
  }

  /** `exec` as written spawns the C compiler whatever it is asked for, so it
      agrees with the intended `exec` exactly on requests for the C compiler */
  lemma ExecIgnoresCommand(cfg: Config, req: Request)
    ensures SpawnAsWritten(cfg, req).program == cfg.cCompiler
    ensures SpawnAsWritten(cfg, req) == Spawn(req) <==> req.command == cfg.cCompiler
  {
  }

  /** Running the as-written `exec` over a list of requests gives what the
      intended one gives exactly when every request is for the C compiler */
  lemma SpawnAllAgree(cfg: Config, reqs: seq<Request>)
    ensures SpawnAllAsWritten(cfg, reqs) == SpawnAll(reqs) <==> AllFor(reqs, cfg.cCompiler)
  {
    var a, b := SpawnAllAsWritten(cfg, reqs), SpawnAll(reqs);
    if a == b {
      forall i | 0 <= i < |reqs| ensures reqs[i].command == cfg.cCompiler {
        assert a[i] == b[i];
      }
    }
  }

  /** As written, `compile` fails where the intended one fails, with the same
      error, and also throws when a source file is classified under an inherited
      property name; otherwise it updates the options the same way, but every
      compiler it spawns is the C compiler, with the arguments the intended plan
      gives that position */
  lemma CompileAsWrittenSpec(cfg: Config, env: CompileEnv)
    ensures CompileAsWritten(cfg, env).Success? <==>
      && Compile(cfg, env).Success?
      && ReadRecursive(env.sourceTree).Success?
      && !HitsPrototype(ReadRecursive(env.sourceTree).value.files)
    ensures Compile(cfg, env).Failure? ==> CompileAsWritten(cfg, env) == Compile(cfg, env)
    ensures Compile(cfg, env).Success? && CompileAsWritten(cfg, env).Failure? ==>
      && CompileAsWritten(cfg, env).error.GroupingThrew?
      && CompileAsWritten(cfg, env).error.key in PrototypeKeys
    ensures CompileAsWritten(cfg, env).Success? && Compile(cfg, env).Success? ==>
      var written, intended := CompileAsWritten(cfg, env).value, Compile(cfg, env).value;
      && written.cfg == intended.cfg
      && |written.spawned| == |intended.spawned|
      && forall i :: 0 <= i < |written.spawned| ==>
           written.spawned[i].program == cfg.cCompiler
           && written.spawned[i].args == intended.spawned[i].args
  {
    if CompileSources(cfg, env).Success? {
      AsWrittenAgrees(CompileSources(cfg, env).value.files);
    }
  }

  /** A listing has a file under `ext` exactly when the filter for `ext` is
      not empty */
  lemma OccursIffFiltered(files: seq<string>, ext: string)
    ensures Occurs(files, ext) <==> |FilesWithExtension(files, ext)| > 0
  {
    if Occurs(files, ext) {
      var i :| 0 <= i < |files| && Extension(files[i]) == Some(ext);
      assert files[i] in FilesWithExtension(files, ext);
    } else {
      NoneWithExtension(files, ext);
    }
  }

  /** Every request is for `compiler` */
  predicate AllFor(reqs: seq<Request>, compiler: string) {
    forall i :: 0 <= i < |reqs| ==> reqs[i].command == compiler
  }

  /** Requests for `c` followed by requests for `d` are all for `c` exactly
      when there are none of the latter or `d` is `c` */
  lemma AllForConcat(a: seq<Request>, b: seq<Request>, c: string, d: string)
    requires AllFor(a, c) && AllFor(b, d)
    ensures AllFor(a + b, c) <==> |b| == 0 || d == c
  {
    if |b| > 0 {
      assert (a + b)[|a|] == b[0];
    }
    if |b| == 0 || d == c {
      forall i | 0 <= i < |a + b| ensures (a + b)[i].command == c {
        if i >= |a| {
          assert (a + b)[i] == b[i - |a|];
        }
      }
    }
  }

  /** The code as written spawns what was evidently intended exactly when no
      source file is classified under an inherited property name, and no C++
      file is compiled or the two compilers are the same program */
  lemma {:induction false} CompileAsWrittenAgrees(cfg: Config, env: CompileEnv)
    requires Compile(cfg, env).Success?
    ensures ReadRecursive(env.sourceTree).Success?
    ensures var files := ReadRecursive(env.sourceTree).value.files;
      (CompileAsWritten(cfg, env) == Compile(cfg, env))
        <==> !HitsPrototype(files) && (!Occurs(files, cfg.cppExt) || cfg.cppCompiler == cfg.cCompiler)
  {
    var files := CompileSources(cfg, env).value.files;
    assert files == ReadRecursive(env.sourceTree).value.files;
    AsWrittenAgrees(files);
    if !HitsPrototype(files) {
      var groups := FilesByExtension(files);
      var cs, cpps := Group(groups, cfg.cExt), Group(groups, cfg.cppExt);
      var reqs := OrdersFor(cfg, groups).requests;
      assert CompileAsWritten(cfg, env) == Compile(cfg, env) <==> SpawnAllAsWritten(cfg, reqs) == SpawnAll(reqs);
      assert reqs == CompileRequestsFor(cfg, cfg.cCompiler, cs) + CompileRequestsFor(cfg, cfg.cppCompiler, cpps);
      SpawnAllAgree(cfg, reqs);
      AllForConcat(CompileRequestsFor(cfg, cfg.cCompiler, cs), CompileRequestsFor(cfg, cfg.cppCompiler, cpps),
                   cfg.cCompiler, cfg.cppCompiler);
      assert |cpps| == 0 <==> !Occurs(files, cfg.cppExt) by {
        GroupIsFilter(files, cfg.cppExt);
        OccursIffFiltered(files, cfg.cppExt);
      }
    }
  }

  /** A source file classified under an inherited property name, after files
      that group without trouble, makes the code as written throw before any
      compiler runs, where the intended `compile` goes on to the compilers */
  lemma {:induction false} PrototypeSourceThrows(cfg: Config, env: CompileEnv, init: seq<string>, stem: string, key: string)
    requires Compile(cfg, env).Success?
    requires ReadRecursive(env.sourceTree).Success?
    requires ReadRecursive(env.sourceTree).value.files == init + [stem + "." + key]
    requires !HitsPrototype(init) && key in PrototypeKeys && '.' !in key && '/' !in key
    ensures CompileAsWritten(cfg, env) == Failure(GroupingThrew(key))
  {
    assert CompileSources(cfg, env) == Success(ReadRecursive(env.sourceTree).value);
    PrototypeKeyAfter(init, stem, key);
  }

  /** With the default options a C++ file is planned for `g++`, but the code as
      written spawns `gcc` for it */
  lemma CppCompilerCounterexample(file: string)
    requires file == "main.cpp"
    ensures var req := CompileRequests(Defaults, map["cpp" := [file]])[0];
      SpawnAsWritten(Defaults, req).program == "gcc" && Spawn(req).program == "g++"
  {
    var groups := map["cpp" := [file]];
    assert "c" !in groups;
    assert Group(groups, "cpp") == [file];
    assert CompileRequests(Defaults, groups) == [] + CompileRequestsFor(Defaults, "g++", [file]);
  }

  /** A successful link spawns the C compiler with a `-l` flag per library,
      then every listed file classified under `o`, below the `.luo` directory,
      then `-o` and an output in the build directory named after the working
      directory's last segment; it fails exactly when no such file is listed */
  lemma {:induction false} LinkSpec(cfg: Config, objectTree: Scan, cwd: string)
    requires ReadRecursive(objectTree).Success?
    ensures var files := ReadRecursive(objectTree).value.files;
      Link(cfg, objectTree, cwd).Failure? <==> !Occurs(files, "o")
    ensures var files := ReadRecursive(objectTree).value.files;
      var objects := FilesWithExtension(files, "o");
      var out := cfg.build + "/" + BaseName(cwd);
      Link(cfg, objectTree, cwd).Success? ==>
        && Link(cfg, objectTree, cwd).value.program == cfg.cCompiler
        && Link(cfg, objectTree, cwd).value.args
           == Flags("-l", cfg.libraries) + Nest(cfg.build + "/.luo", objects) + ["-o", out]
        && '/' in out && Parent(out) == cfg.build
  {
    var files := ReadRecursive(objectTree).value.files;
    ByExtensionSpec(files);
    ParentOfNested(cfg.build, BaseName(cwd));
  }

  /** An object written by `compile` for a source file `f` is listed below the
      `.luo` directory as `f.o`, which the link step classifies under `o` */
  lemma ObjectsClassified(f: string)
    ensures Extension(f + ".o") == Some("o")
  {
    assert f + ".o" == f + "." + "o";
    ExtensionOfSuffix(f, "o");
  }

  /** Every library on the list reaches the link step as a `-l` flag */
  lemma LinkPassesLibraries(cfg: Config, objectTree: Scan, cwd: string, lib: string)
    requires lib in cfg.libraries
    requires Link(cfg, objectTree, cwd).Success?
    ensures "-l" + lib in Link(cfg, objectTree, cwd).value.args
  {
    var i :| 0 <= i < |cfg.libraries| && cfg.libraries[i] == lib;
    var args := Link(cfg, objectTree, cwd).value.args;
    var files := ReadRecursive(objectTree).value.files;
    var objects := FilesByExtension(files)["o"];
    assert args == Flags("-l", cfg.libraries) + (Nest(cfg.build + "/.luo", objects)
      + ["-o", cfg.build + "/" + Last(Split(cwd, '/'))]);
    assert args[i] == "-l" + lib;
  }

  /** After a `compile` that saw a C++ file, the link step passes `-lstdc++` */
  lemma LinkAfterCppCompile(cfg: Config, env: CompileEnv, objectTree: Scan, cwd: string)
    requires Compile(cfg, env).Success?
    requires Occurs(ReadRecursive(env.sourceTree).value.files, cfg.cppExt)
    ensures var linked := Compile(cfg, env).value.cfg;
      Link(linked, objectTree, cwd).Success? ==> "-l" + "stdc++" in Link(linked, objectTree, cwd).value.args
  {
    var linked := Compile(cfg, env).value.cfg;
    CompileAddsStdCpp(cfg, env);
    if Link(linked, objectTree, cwd).Success? {
      LinkPassesLibraries(linked, objectTree, cwd, "stdc++");
    }
  }

  lemma {:induction false} CompileAddsStdCpp(cfg: Config, env: CompileEnv)
    requires Compile(cfg, env).Success?
    requires Occurs(ReadRecursive(env.sourceTree).value.files, cfg.cppExt)
    ensures "stdc++" in Compile(cfg, env).value.cfg.libraries
  {
    ByExtensionSpec(ReadRecursive(env.sourceTree).value.files);
  }
}

=== FILE: seqs.dfy ===
/** Facts about sequences shared by the listing, parsing and planning models */
module Seqs {

  /** No element occurs twice */
  predicate NoDup<T(==)>(xs: seq<T>) {
    forall i, j :: 0 <= i < j < |xs| ==> xs[i] != xs[j]
  }

  /** The elements of a sequence */
  ghost function Elements<T>(xs: seq<T>): set<T> {
    set x | x in xs
  }

  /** A duplicate-free sequence has as many distinct elements as entries */
  lemma {:induction false} DistinctCard<T>(xs: seq<T>)
    requires NoDup(xs)
    ensures |Elements(xs)| == |xs|
  {
    if |xs| > 0 {
      var init, y := xs[..|xs| - 1], xs[|xs| - 1];
      assert NoDup(init) by {
        forall i, j | 0 <= i < j < |init| ensures init[i] != init[j] {
          assert init[i] == xs[i] && init[j] == xs[j];
        }
      }
      DistinctCard(init);
      assert xs == init + [y];
      var a, b := Elements(init), Elements(xs);
      assert b == a + {y};
      assert y !in a by {
        forall i | 0 <= i < |init| ensures init[i] != y {
          assert init[i] == xs[i];
        }
      }
    }
  }

  /** Two duplicate-free sequences with no common element concatenate to one */
  lemma NoDupConcat<T>(a: seq<T>, b: seq<T>)
    requires NoDup(a) && NoDup(b)
    requires forall x :: x in a ==> x !in b
    ensures NoDup(a + b)
  {
    forall i, j | 0 <= i < j < |a + b| ensures (a + b)[i] != (a + b)[j] {
      if j < |a| {
        assert (a + b)[i] == a[i] && (a + b)[j] == a[j];
      } else if i < |a| {
        assert (a + b)[i] == a[i] && (a + b)[j] == b[j - |a|];
        assert a[i] in a;
      } else {
        assert (a + b)[i] == b[i - |a|] && (a + b)[j] == b[j - |a|];
      }
    }
  }
}

=== FILE: staging.dfy ===
/** `mkdir` and `mkdirs`: the directories `compile` creates before it spawns
    the compiler, one after another, stopping at the first real failure. The
    filesystem is replaced by an oracle that answers each `fs.mkdir` call. */
module Staging {
  import opened Wrappers
  import opened Seqs
  import opened Paths
  import opened DirTree

  /** The error object `fs.mkdir` passes to its callback */
  datatype OsError = OsError(errno: int, path: string)

  /** The errno the source treats as "already exists" */
  const EEXIST: int := 47

  /** The errno of a missing parent directory in the same errno numbering */
  const ENOENT: int := 34

  /** `mkdir` calls its success callback when there is no error or the
      directory already exists */
  predicate MkdirSucceeds(outcome: Option<OsError>) {
    outcome.None? || outcome.value.errno == EEXIST
  }

  /** How far `mkdirs` got: how many names it attempted, and the error it
      reported if it stopped early */
  datatype StageReport = StageReport(attempted: nat, error: Option<OsError>)

  /** The directories present before attempt `k`: those present at the start,
      and every name attempted earlier */
  ghost function ExistingAt(existing: set<string>, names: seq<string>, k: nat): set<string>
    requires k <= |names|
  {
    existing + Elements(names[..k])
  }

  /** `mkdirs(names)`: each name in turn, through an oracle answering
      `fs.mkdir` given the directories that exist at that moment */
  function Mkdirs(names: seq<string>, existing: set<string>,
                  mkdir: (set<string>, string) -> Option<OsError>): (r: StageReport)
    ensures r.attempted <= |names|
    ensures r.error.None? ==> r.attempted == |names|
    ensures r.error.Some? ==> r.attempted > 0
  {
    if |names| == 0 then StageReport(0, None)
    else
      var outcome := mkdir(existing, names[0]);
      if MkdirSucceeds(outcome) then
        var rest := Mkdirs(names[1..], existing + {names[0]}, mkdir);
        StageReport(rest.attempted + 1, rest.error)
      else StageReport(1, outcome)
  }

  /** Attempt `k` of a run succeeded */
  ghost predicate StepOk(names: seq<string>, existing: set<string>,
                         mkdir: (set<string>, string) -> Option<OsError>, k: nat)
    requires k < |names|
  {
    MkdirSucceeds(mkdir(ExistingAt(existing, names, k), names[k]))
  }

  lemma ExistingShift(names: seq<string>, existing: set<string>, k: nat)
    requires k < |names|
    ensures ExistingAt(existing, names, k + 1) == ExistingAt(existing + {names[0]}, names[1..], k)
  {
    assert names[..k + 1] == [names[0]] + names[1..][..k];
  }

  /** What each attempt of a run reported */
  lemma {:induction false} MkdirsSteps(names: seq<string>, existing: set<string>,
                                       mkdir: (set<string>, string) -> Option<OsError>)
    ensures var r := Mkdirs(names, existing, mkdir);
      && (forall k :: 0 <= k < r.attempted && (r.error.None? || k < r.attempted - 1) ==>
            StepOk(names, existing, mkdir, k))
      && (r.error.Some? ==>
            r.error == mkdir(ExistingAt(existing, names, r.attempted - 1), names[r.attempted - 1])
            && !MkdirSucceeds(r.error))
  {
    if |names| > 0 {
      var x, rest := names[0], names[1..];
      var next := existing + {x};
      assert ExistingAt(existing, names, 0) == existing by {
        assert names[..0] == [];
      }
      if MkdirSucceeds(mkdir(existing, x)) {
        MkdirsSteps(rest, next, mkdir);
        var r := Mkdirs(names, existing, mkdir);
        var r' := Mkdirs(rest, next, mkdir);
        assert r.attempted == r'.attempted + 1 && r.error == r'.error;
        forall k | 0 < k < r.attempted && (r.error.None? || k < r.attempted - 1)
          ensures StepOk(names, existing, mkdir, k)
        {
          ExistingShift(names, existing, k - 1);
          assert StepOk(rest, next, mkdir, k - 1);
        }
        assert StepOk(names, existing, mkdir, 0);
        if r.error.Some? {
          ExistingShift(names, existing, r.attempted - 2);
        }
      }
    }
  }

  /** `mkdirs` attempts the names strictly in order: it succeeds exactly when
      every attempt succeeds, and otherwise stops at the first failure and
      reports its error */
  lemma MkdirsSpec(names: seq<string>, existing: set<string>,
                   mkdir: (set<string>, string) -> Option<OsError>)
    ensures var r := Mkdirs(names, existing, mkdir);
      && (r.error.None? <==> forall k :: 0 <= k < |names| ==> StepOk(names, existing, mkdir, k))
      && (forall k :: 0 <= k < r.attempted - 1 ==> StepOk(names, existing, mkdir, k))
      && (r.error.Some? ==>
            r.error == mkdir(ExistingAt(existing, names, r.attempted - 1), names[r.attempted - 1])
            && !MkdirSucceeds(r.error))
  {
    MkdirsSteps(names, existing, mkdir);
    var r := Mkdirs(names, existing, mkdir);
    if r.error.Some? {
      assert !StepOk(names, existing, mkdir, r.attempted - 1);
    }
  }

  /** The list `compile` stages: the build directory, its `.luo` directory and a
      copy of every source directory below that */
  function StagingList(build: string, dirs: seq<string>): (names: seq<string>)
    ensures |names| == |dirs| + 2
  {
    [build, build + "/.luo"] + Nest(build + "/.luo", dirs)
  }

  /** A filesystem that behaves as POSIX `mkdir` does: an existing directory
      gives "already exists", a missing parent gives ENOENT, anything else is
      created */
  function IdealMkdir(existing: set<string>, path: string): Option<OsError> {
    if path in existing then Some(OsError(EEXIST, path))
    else if '/' in path && Parent(path) !in existing then Some(OsError(ENOENT, path))
    else None
  }

  /** On such a filesystem, staging a list whose parents come first succeeds,
      provided the first names' parents already exist */
  lemma {:induction false} IdealStagingSucceeds(names: seq<string>, roots: seq<string>, existing: set<string>)
    requires ParentsAmong(roots, names)
    requires forall d :: d in roots ==> d in existing
    ensures Mkdirs(names, existing, IdealMkdir) == StageReport(|names|, None)
  {
    if |names| > 0 {
      var x := names[0];
      assert names == [x] + names[1..];
      assert MkdirSucceeds(IdealMkdir(existing, x)) by {
        if '/' in x && x !in existing {
          assert names[..0] == [];
        }
      }
      ParentsShift(roots, x, names[1..]);
      IdealStagingSucceeds(names[1..], roots + [x], existing + {x});
    }
  }

  /** The staging list has parents first when the source listing does, the
      build directory's own parent being the only one it relies on */
  lemma StagingParents(build: string, dirs: seq<string>, roots: seq<string>)
    requires ParentsFirst(dirs)
    requires '/' !in build || Parent(build) in roots
    ensures ParentsAmong(roots, StagingList(build, dirs))
  {
    var luo := build + "/.luo";
    ParentOfNested(build, ".luo");
    assert '/' !in ".luo";
    assert build + "/" + ".luo" == luo;
    assert Parent(luo) == build;
    assert ParentsAmong(roots, [build, luo]) by {
      var two := [build, luo];
      forall i | 0 <= i < 2 && '/' in two[i]
        ensures Parent(two[i]) in roots || Parent(two[i]) in two[..i]
      {
        if i == 1 {
          assert two[..1] == [build];
        }
      }
    }
    ParentsNest(luo, dirs);
    ParentsWiden([luo], roots + [build, luo], Nest(luo, dirs));
    ParentsAppend(roots, [build, luo], Nest(luo, dirs));
  }

  /** Staging what `compile` stages, from a well-formed listing of the source
      tree, succeeds on a POSIX-like filesystem whenever the build directory's
      parent exists */
  lemma CompileStagingSucceeds(build: string, t: Scan, existing: set<string>)
    requires Wf(t) && ReadRecursive(t).Success?
    requires '/' !in build || Parent(build) in existing
    ensures var names := StagingList(build, ReadRecursive(t).value.dirs);
      Mkdirs(names, existing, IdealMkdir) == StageReport(|names|, None)
  {
    var dirs := ReadRecursive(t).value.dirs;
    ReadParents(t);
    var roots := if '/' in build then [Parent(build)] else [];
    StagingParents(build, dirs, roots);
    IdealStagingSucceeds(StagingList(build, dirs), roots, existing);
  }

  /** A child staged before its parent fails with ENOENT and nothing after it
      is attempted */
  lemma ChildFirstFails(child: string, rest: seq<string>, existing: set<string>)
    requires '/' in child && child !in existing && Parent(child) !in existing
    ensures Mkdirs([child] + rest, existing, IdealMkdir) == StageReport(1, Some(OsError(ENOENT, child)))
  {
    assert ([child] + rest)[0] == child;
  }

  /** `a` then `a/b` on an empty filesystem: both are created */
  lemma ParentFirstExample(names: seq<string>)
    requires names == ["a", "a/b"]
    ensures Mkdirs(names, {}, IdealMkdir) == StageReport(2, None)
  {
    ParentOfNested("a", "b");
    assert "a" + "/" + "b" == "a/b";
    assert ParentsAmong([], names) by {
      forall i | 0 <= i < |names| && '/' in names[i]
        ensures Parent(names[i]) in [] || Parent(names[i]) in names[..i]
      {
        assert i == 1 && names[..1] == ["a"];
      }
    }
    IdealStagingSucceeds(names, [], {});
  }

  /** `a/b` then `a` on an empty filesystem: the first attempt fails with
      ENOENT and `a` is never attempted */
  lemma ChildFirstExample(names: seq<string>)
    requires names == ["a/b", "a"]
    ensures Mkdirs(names, {}, IdealMkdir) == StageReport(1, Some(OsError(ENOENT, "a/b")))
  {
    ParentOfNested("a", "b");
    assert "a" + "/" + "b" == "a/b";
    assert names == ["a/b"] + ["a"];
    ChildFirstFails("a/b", ["a"], {});
  }
}

=== FILE: text.dfy ===
/** The JavaScript string primitives the build orchestrator relies on:
    `String.prototype.split` with a one-character separator, `Array.prototype.pop`
    of its result, and the `^\s+` / `\s+$` trimming done with regular expressions. */
module Text {

  /** JavaScript's `\s` class: the ECMAScript WhiteSpace and LineTerminator
      characters, with the space separators of Unicode 6.2 that the V8 engine of
      Node.js 0.10 knows, U+180E among them */
  predicate IsJsSpace(c: char) {
    || c == '\t' || c == '\n' || c == '\U{000B}' || c == '\U{000C}' || c == '\r' || c == ' '
    || c == '\U{00A0}' || c == '\U{1680}' || c == '\U{180E}' || ('\U{2000}' <= c <= '\U{200A}')
    || c == '\U{2028}' || c == '\U{2029}' || c == '\U{202F}' || c == '\U{205F}'
    || c == '\U{3000}' || c == '\U{FEFF}'
  }

  /** `s.replace(/^\s+/, '')`: drops the leading run of white space */
  function TrimStart(s: string): (r: string)
    ensures |r| <= |s| && r == s[|s| - |r|..]
    ensures forall k :: 0 <= k < |s| - |r| ==> IsJsSpace(s[k])
    ensures |r| == 0 || !IsJsSpace(r[0])
  {
    if |s| > 0 && IsJsSpace(s[0]) then TrimStart(s[1..]) else s
  }

  /** `s.replace(/\s+$/, '')`: drops the trailing run of white space */
  function TrimEnd(s: string): (r: string)
    ensures |r| <= |s| && r == s[..|r|]
    ensures forall k :: |r| <= k < |s| ==> IsJsSpace(s[k])
    ensures |r| == 0 || !IsJsSpace(r[|r| - 1])
  {
    if |s| > 0 && IsJsSpace(s[|s| - 1]) then TrimEnd(s[..|s| - 1]) else s
  }

  /** Both replacements, leading run first, as the diagnostic parser applies them */
  function Trim(s: string): (r: string)
    ensures |r| <= |s|
    ensures |r| == 0 || (!IsJsSpace(r[0]) && !IsJsSpace(r[|r| - 1]))
    ensures |r| == 0 <==> forall k :: 0 <= k < |s| ==> IsJsSpace(s[k])
  {
    TrimEnd(TrimStart(s))
  }

  predicate AllSpace(s: string) {
    forall k :: 0 <= k < |s| ==> IsJsSpace(s[k])
  }

  lemma {:induction false} TrimStartSkipsSpace(space: string, rest: string)
    requires AllSpace(space)
    ensures TrimStart(space + rest) == TrimStart(rest)
  {
    if |space| > 0 {
      assert (space + rest)[1..] == space[1..] + rest;
      TrimStartSkipsSpace(space[1..], rest);
    } else {
      assert space + rest == rest;
    }
  }

  lemma {:induction false} TrimEndSkipsSpace(rest: string, space: string)
    requires AllSpace(space)
    ensures TrimEnd(rest + space) == TrimEnd(rest)
  {
    if |space| > 0 {
      assert (rest + space)[..|rest + space| - 1] == rest + space[..|space| - 1];
      TrimEndSkipsSpace(rest, space[..|space| - 1]);
    } else {
      assert rest + space == rest;
    }
  }

  /** A Mongolian vowel separator, a space separator up to Unicode 6.2, is
      trimmed from either end like any other white space */
  lemma {:induction false} VowelSeparatorTrimmed(text: string)
    requires |text| == 0 || (!IsJsSpace(text[0]) && !IsJsSpace(text[|text| - 1]))
    ensures Trim(text + "\U{180E}") == text && Trim("\U{180E}" + text) == text
  {
    var sep := "\U{180E}";
    assert AllSpace(sep);
    assert AllSpace("");
    if |text| > 0 {
      TrimExact("", text, sep);
      assert "" + text + sep == text + sep;
    } else {
      assert text + sep == sep;
    }
    TrimExact(sep, text, "");
    assert sep + text + "" == sep + text;
  }

  /** Trimming removes exactly the white space around the text and nothing of it */
  lemma TrimExact(before: string, text: string, after: string)
    requires AllSpace(before) && AllSpace(after)
    requires |text| == 0 || (!IsJsSpace(text[0]) && !IsJsSpace(text[|text| - 1]))
    requires |text| > 0 || |after| == 0
    ensures Trim(before + text + after) == text
  {
    assert before + text + after == before + (text + after);
    TrimStartSkipsSpace(before, text + after);
    assert TrimStart(text + after) == text + after;
    TrimEndSkipsSpace(text, after);
  }

  /** `parts.join(sep)` */
  function Join(parts: seq<string>, sep: char): string
  {
    if |parts| == 0 then ""
    else if |parts| == 1 then parts[0]
    else parts[0] + [sep] + Join(parts[1..], sep)
  }

  /** `s.split(sep)` for a one-character separator: the maximal separator-free pieces */
  function Split(s: string, sep: char): (parts: seq<string>)
    ensures |parts| >= 1
    ensures forall k :: 0 <= k < |parts| ==> sep !in parts[k]
    ensures Join(parts, sep) == s
  {
    if |s| == 0 then [""]
    else
      var rest := Split(s[1..], sep);
      if s[0] == sep then
        assert ([""] + rest)[1..] == rest;
        [""] + rest
      else
        var parts := [[s[0]] + rest[0]] + rest[1..];
        assert |parts| > 1 ==> parts[1..] == rest[1..];
        parts
  }

  lemma {:induction false} JoinSnoc(parts: seq<string>, x: string, sep: char)
    requires |parts| >= 1
    ensures Join(parts + [x], sep) == Join(parts, sep) + [sep] + x
  {
    if |parts| == 1 {
      assert (parts + [x])[1..] == [x];
    } else {
      assert (parts + [x])[1..] == parts[1..] + [x];
      JoinSnoc(parts[1..], x, sep);
    }
  }

  lemma {:induction false} JoinAppend(a: seq<string>, b: seq<string>, sep: char)
    requires |a| >= 1 && |b| >= 1
    ensures Join(a + b, sep) == Join(a, sep) + [sep] + Join(b, sep)
  {
    if |a| == 1 {
      assert (a + b)[1..] == b;
    } else {
      assert (a + b)[1..] == a[1..] + b;
      JoinAppend(a[1..], b, sep);
    }
  }

  /** The text before the first `sep` (all of `s` when there is none) */
  function TakeUntil(s: string, sep: char): string
  {
    if |s| == 0 || s[0] == sep then "" else [s[0]] + TakeUntil(s[1..], sep)
  }

  lemma {:induction false} TakeUntilPiece(a: string, rest: string, sep: char)
    requires sep !in a
    requires |rest| == 0 || rest[0] == sep
    ensures TakeUntil(a + rest, sep) == a
  {
    if |a| > 0 {
      assert (a + rest)[1..] == a[1..] + rest;
      TakeUntilPiece(a[1..], rest, sep);
    } else {
      assert a + rest == rest;
    }
  }

  /** The first piece of a join ends at its first separator, and a separator occurs iff there are two pieces or more */
  lemma JoinFirstPiece(p: seq<string>, sep: char)
    requires |p| >= 1
    requires forall k :: 0 <= k < |p| ==> sep !in p[k]
    ensures TakeUntil(Join(p, sep), sep) == p[0]
    ensures sep in Join(p, sep) <==> |p| > 1
  {
    if |p| == 1 {
      TakeUntilPiece(p[0], "", sep);
      assert p[0] + "" == p[0];
    } else {
      var s := Join(p, sep);
      assert s == p[0] + ([sep] + Join(p[1..], sep));
      TakeUntilPiece(p[0], [sep] + Join(p[1..], sep), sep);
      assert s[|p[0]|] == sep;
    }
  }

  /** Separator-free pieces are recovered uniquely from their join */
  lemma {:induction false} JoinInjective(p: seq<string>, q: seq<string>, sep: char)
    requires |p| >= 1 && |q| >= 1
    requires forall k :: 0 <= k < |p| ==> sep !in p[k]
    requires forall k :: 0 <= k < |q| ==> sep !in q[k]
    requires Join(p, sep) == Join(q, sep)
    ensures p == q
  {
    var s := Join(p, sep);
    JoinFirstPiece(p, sep);
    JoinFirstPiece(q, sep);
    if |p| > 1 {
      assert Join(p[1..], sep) == s[|p[0]| + 1..] == Join(q[1..], sep);
      JoinInjective(p[1..], q[1..], sep);
      assert p == [p[0]] + p[1..];
      assert q == [q[0]] + q[1..];
    }
  }

  /** Splitting a join of separator-free pieces gives the pieces back */
  lemma SplitJoin(parts: seq<string>, sep: char)
    requires |parts| >= 1
    requires forall k :: 0 <= k < |parts| ==> sep !in parts[k]
    ensures Split(Join(parts, sep), sep) == parts
  {
    JoinInjective(Split(Join(parts, sep), sep), parts, sep);
  }

  function Last<T>(xs: seq<T>): T
    requires |xs| > 0
  {
    xs[|xs| - 1]
  }

  /** `s.lastIndexOf(c)`: -1 when `c` does not occur */
  function LastIndexOf(s: string, c: char): (i: int)
    ensures -1 <= i < |s|
    ensures i >= 0 ==> s[i] == c
    ensures forall k :: i < k < |s| ==> s[k] != c
  {
    LastIndexBelow(s, c, |s|)
  }

  /** The last position of `c` before `n`, or -1 */
  function LastIndexBelow(s: string, c: char, n: nat): (i: int)
    requires n <= |s|
    ensures -1 <= i < n
    ensures i >= 0 ==> s[i] == c
    ensures forall k :: i < k < n ==> s[k] != c
  {
    if n == 0 then -1
    else if s[n - 1] == c then n - 1
    else LastIndexBelow(s, c, n - 1)
  }

  /** The text after the last `c` (all of `s` when there is none) */
  function AfterLast(s: string, c: char): string {
    s[LastIndexOf(s, c) + 1..]
  }

  /** The text after the last `c` is a suffix without `c`, preceded by that `c`
      when there is one */
  lemma AfterLastShape(s: string, c: char)
    ensures var r := AfterLast(s, c);
      && c !in r && |r| <= |s| && s[|s| - |r|..] == r
      && (c in s <==> |r| < |s|)
      && (|r| < |s| ==> s[|s| - |r| - 1] == c)
  {
    var i := LastIndexOf(s, c);
    var r := s[i + 1..];
    assert |s| - |r| == i + 1;
    assert forall k :: 0 <= k < |r| ==> r[k] == s[i + 1 + k];
    if c in s {
      var j :| 0 <= j < |s| && s[j] == c;
      assert j <= i;
    } else {
      assert i == -1;
    }
  }

  /** `s.split(c).pop()` is the text after the last `c` */
  lemma LastPieceIsAfterLast(s: string, c: char)
    ensures Last(Split(s, c)) == AfterLast(s, c)
  {
    var parts := Split(s, c);
    var x := Last(parts);
    if |parts| == 1 {
      assert s == x;
      assert c !in s;
    } else {
      var init := parts[..|parts| - 1];
      assert init + [x] == parts;
      JoinSnoc(init, x, c);
      var i := |Join(init, c)|;
      assert s == Join(init, c) + [c] + x;
      assert s[i] == c;
      assert forall k :: i < k < |s| ==> s[k] == x[k - i - 1];
      assert LastIndexOf(s, c) == i;
      assert s[i + 1..] == x;
    }
  }

  /** Where the last `c` of `a + b` lies */
  lemma LastIndexOfAppend(a: string, b: string, c: char)
    ensures c in b ==> LastIndexOf(a + b, c) == |a| + LastIndexOf(b, c)
    ensures c !in b ==> LastIndexOf(a + b, c) == LastIndexOf(a, c)
  {
    var s, i := a + b, LastIndexOf(a + b, c);
    if c in b {
      var j := LastIndexOf(b, c);
      assert s[|a| + j] == c;
      assert forall k :: |a| + j < k < |s| ==> s[k] == b[k - |a|];
    } else {
      var j := LastIndexOf(a, c);
      assert forall k :: |a| <= k < |s| ==> s[k] == b[k - |a|];
      assert forall k :: j < k < |a| ==> s[k] == a[k];
      assert j >= 0 ==> s[j] == c;
    }
  }

}

=== FILE: wrappers.dfy ===
/** Failure-carrying datatypes used throughout the model: `Option` stands for
    JavaScript's `undefined`/`NaN`, `Result` for a call that either returns a
    value or throws. */
module Wrappers {

  datatype Option<+T> = None | Some(value: T)

  datatype Result<+R, +E> = Success(value: R) | Failure(error: E)
}
